=== FILE: README.md ===
# moehre core, modelled in Dafny

moehre is a small modular synthesizer. Sound-generating Python functions are
registered with a decorator. They appear as nodes in an OpenGL flow editor,
where the user wires output knobs to input knobs and edits each node's
properties in a side panel. The synthesizer evaluates the graph depth first
from the single `Output` node. An audio callback then plays the resulting
bytes from a queue.

This project models the logic behind those pieces as pure Dafny functions over
immutable datatypes:

- `Decorators` (decorators.py): the parameter checks of `registerFunction` and
  the registry it appends to.
- `Synth` (synth.py, data part): the render context `SynthParameters`, the
  `Output` function, and the symbolic values bound to parameters. Sample
  buffers and node functions are uninterpreted. A node's result is the term
  `Call(func, bindings)` and an unconnected buffer is `Filled(default)`.
- `FlowEditor` (glfloweditor.py): how a node's knobs and property table are
  built, the normalisation of connections, `addConnection`, `findConnections`,
  and the editor's edits. The edits are the left-click z-order swap, dropping
  a knob drag, the right-click clearing of a knob, and deleting the selected
  node. Every edit keeps the editor invariant `Wf`: distinct nodes, knobs
  owned by their node, a valid selection, connections between knobs of the
  graph, and at most one connection per input knob.
- `Synthesizer` (synth.py, evaluation part): `_workNode` and
  `synthesizeFromFlowGraph`. Termination comes from an explicit measure. The
  proved properties are:
  - every cycle upstream of the output node is reported as "No loops allowed
    in graph." (a cycle the output node does not reach is never visited);
  - an acyclic graph always evaluates, given that node functions never fail
    (see `Synthesizer.EvalNode` under "Left out");
  - each parameter is bound according to the source's rules.
- `PropertyEditor` (propertyeditor.py): `camelCaseToWords` and the property
  table update of `propertyChanged`. Selecting a node hands the node's own
  table to the panel (glfloweditor.py:292), so an edit rewrites the selected
  node in place. This edit also keeps `Wf`.
- `Audio` (audio.py): the byte queue, with `streamCallback`'s dequeue-and-pad
  and `play`'s append. Byte conservation is proved over any run of callbacks.
- `Common` and `Seqs`: `Option`/`Result`, plus order-preserving filters and
  `list.remove`.

The Python of synth.py:29-60 has these defects, and the model reads past
each of them:

- `_workNode` has no `self` parameter and is called unqualified (lines 29,
  38, 60). The model treats it as a method of the synthesizer.
- `inputs` and `parameters` are lists indexed by name (lines 30, 40). The
  model uses dictionaries.
- `parameter.annotation()` calls the class instead of comparing it (lines
  46, 48). The model compares annotations.
- The output-node filter names an undefined `x` (line 54). The model tests
  each `node`.
- The output node is read through `node.parameters` (lines 58-59), which
  nodes do not have. The model reads `node.properties`.
- Even read from `node.properties`, each entry is an `(annotation, value)`
  pair, and `length * rate` (line 14) cannot multiply two pairs. The model
  takes the value half of each entry, as line 44 does with `[1]`.

The loop check at synth.py:34 compares the upstream output knob with a list of
nodes, so read literally it never fires. The model asks whether the upstream
node is on the path, which is what the error message promises. The check sits
on the edge into a node, so a node feeding itself is detected one level later
than a longer cycle would be; the measure's `Flag` component accounts for this.

Deleting the `Output` node is not prevented by the code, and the model does
not prevent it either.

`registerOutputFunction`, the decorator on `Output`, is not part of this
model. `Output` is given as a constant, and the editor's output functions are
a parameter of `NewEditor`.

## Model

| member | source | states |
|---|---|---|
| Decorators.CheckParameter | decorators.py:8-16 | a parameter passes exactly when its kind is neither keyword-only nor var-positional and it has an annotation iff it has a default; each of the four errors is raised exactly under its own condition, kind checks first |
| Decorators.ValidateSignature | decorators.py:8-16 | a signature is accepted exactly when every parameter passes its check |
| Decorators.FirstOffenceDecides | decorators.py:8-16 | parameter i is the first offending one iff the reported error is i's error and every earlier parameter passes |
| Decorators.RejectionHasFirstOffence | decorators.py:8-16 | every rejected signature has a first offending parameter whose error is the one reported |
| Decorators.RegisterFunction | decorators.py:5-17 | the registry always grows by exactly the function, even when registration raises; an accepted function is returned unchanged; a rejection carries the first offending parameter's error |
| Decorators.GetRegisteredFunctions | decorators.py:19-20 | the registry as it stands, every registered function in registration order |
| Decorators.RegistrationOrder | decorators.py:5-20 | after registering a list of functions the registry lists each once, in registration order, whatever the outcomes |
| Synth.NewSynthParameters | synth.py:11-14 | the render context keeps the given rate and length, and its sample count is length * rate |
| Synth.OutputFuncIsValid | synth.py:19-21 | the `Output` signature passes the registry's checks |
| FlowEditor.SetProperty | propertyeditor.py:54 | assigning an existing key keeps the key order; a new key is appended at the end |
| FlowEditor.SetPropertyKeepsOthers | propertyeditor.py:54 | every entry under another key stays at its position |
| FlowEditor.SetPropertyLookup | propertyeditor.py:54 | after the assignment the key looks up to the new entry and every other key to what it did before |
| FlowEditor.InputKnobCount | glfloweditor.py:70-71 | the number of input knobs among a node's knobs: at most the number of knobs, and zero exactly when none is an input knob |
| FlowEditor.FreshPropertyName | glfloweditor.py:60-68 | while the table is built, the next parameter's name is not yet a key |
| FlowEditor.NewFlowNode | glfloweditor.py:41-71 | the node's knobs are an output knob (unless its function is an output function) followed by one input knob per `SynthBuffer` parameter in order, indexed 0, 1, 2, ...; its table holds one `(annotation, default)` entry per parameter that is neither buffer nor context, in order |
| FlowEditor.AddParameter | glfloweditor.py:60-71 | one loop iteration extends the knobs and properties built so far by exactly the next parameter's contribution |
| FlowEditor.NodeKnobs | glfloweditor.py:53-71 | the first knob is an output knob iff the function is not an output function; the input knob count equals the number of buffer parameters; all knobs belong to the node |
| FlowEditor.ParameterPartition | glfloweditor.py:60-68 | every parameter becomes exactly one of input knob, render context or property |
| FlowEditor.NewConnection | glfloweditor.py:116-125 | a connection exists iff the two knobs have different types; it is stored as (input, output) holding exactly the two given knobs; otherwise "Invalid connection." |
| FlowEditor.NewConnectionSymmetric | glfloweditor.py:116-125 | the argument order does not matter |
| FlowEditor.FindConnections | glfloweditor.py:279-282 | exactly the connections with either end at the knob |
| FlowEditor.FindConnectionsConcat | glfloweditor.py:279-282 | the lookup keeps list order |
| FlowEditor.AddConnection | glfloweditor.py:267-271 | refused with "Knob already connected." iff some connection already has the input knob as input end, leaving the list unchanged; otherwise exactly the new connection is appended and the single-input invariant is kept |
| FlowEditor.InputKnobConnection | glfloweditor.py:267-282 | in a well-formed graph an input knob has at most one connection and is its input end |
| FlowEditor.Without | glfloweditor.py:348 | the comprehension keeps exactly the connections not in the deletion list |
| FlowEditor.WithoutTouching | glfloweditor.py:345-348 | dropping the connections found at the node's knobs leaves exactly those touching none of them, in their original order |
| FlowEditor.ConnectionsOfKnobs | glfloweditor.py:345-347 | the deletion list holds exactly the connections touching one of the node's knobs |
| FlowEditor.RemoveFoundConnections | glfloweditor.py:306-313 | removing the found connections one `list.remove` at a time leaves exactly the connections not touching the knob, in order |
| Seqs.IndexOf | glfloweditor.py:350 | the position of the first occurrence of an element: it is there and nowhere before |
| Seqs.RemoveFirst | glfloweditor.py:350 | `list.remove` cuts out the first occurrence of the element and keeps the elements before and after it in order; a list without the element is returned unchanged |
| Seqs.RemoveFirstMultiset | glfloweditor.py:350 | `list.remove` takes away exactly one occurrence and keeps every other element |
| FlowEditor.AddNode | glfloweditor.py:260-265 | a node with the next fresh identity, built as `FlowNode` builds it, is appended and the next identity advances by one; nothing else changes; the invariant is kept |
| FlowEditor.AppendFreshNodeKeepsWf | glfloweditor.py:260-265 | appending a node with a fresh identity and its own knobs keeps the invariant |
| FlowEditor.NewEditor | glfloweditor.py:222-235 | a new editor is well formed and holds exactly one node, running `Output`, under identity 0 with the next identity 1; its knobs are the leading output knob (unless `Output` is an output function) and the input knob `input`; its table is `sampleRate` 44100, `length` 2.0, `playbackSpeedFactor` 1.0; there are no connections and no selection |
| FlowEditor.OutputNodeShape | glfloweditor.py:60-68 | of the parameters of `Output` (synth.py:20), only `input` becomes an input knob, and `sampleRate`, `length` and `playbackSpeedFactor` fill the table in signature order with their defaults |
| FlowEditor.OutputTableEntries | glfloweditor.py:68 | each key of the new `Output` table looks up to its own entry |
| FlowEditor.OutputParameterNamesDistinct | synth.py:20 | the parameters of `Output` have distinct names |
| FlowEditor.LeftClick | glfloweditor.py:284-303 | a hit node is swapped with the front node and selected, the node list stays a permutation and every other position is unchanged; a hit knob changes nothing; a miss clears the selection; connections never change |
| FlowEditor.LeftClickKeepsWf | glfloweditor.py:284-303 | a left click keeps the invariant |
| FlowEditor.DropKnob | glfloweditor.py:183-187 | dropping on nothing or on the same knob changes nothing; dropping on a same-type knob is "Invalid connection."; otherwise the drop is refused with "Knob already connected." exactly when some connection already has the new connection's input knob as its input end, and succeeds with exactly the new connection appended and nothing else changed |
| FlowEditor.DropKnobKeepsWf | glfloweditor.py:183-187 | a drop between knobs of the graph keeps the invariant |
| FlowEditor.RightClick | glfloweditor.py:305-313 | a right click on a knob removes all and only the connections touching it, in order, unless it is an output knob with several connections and the user declines; nodes and selection never change |
| FlowEditor.RightClickKeepsWf | glfloweditor.py:305-313 | a right click keeps the invariant |
| FlowEditor.DeleteSelected | glfloweditor.py:341-354 | once confirmed, the selected node is cut out of the node list at its position with the other nodes kept in order, exactly the connections touching its knobs are dropped with the rest kept in order, and the selection is cleared; otherwise nothing changes |
| FlowEditor.DeleteSelectedKeepsWf | glfloweditor.py:341-354 | deleting the selected node keeps the invariant |
| Synthesizer.MeasureDecreases | synth.py:29-38 | each recursive call pushes a node that is not yet on the path, so the recursion terminates on every finite graph |
| Synthesizer.EvalNode | synth.py:29-51 | evaluation either fails with "No loops allowed in graph." or yields a call of the node's own function |
| Synthesizer.CollectInputs | synth.py:31-38 | the knob loop fails only with the loop error |
| Synthesizer.BindUpstream | synth.py:33-38 | following a knob's connections fails only with the loop error |
| Synthesizer.BindParameters | synth.py:40-49 | every binding names a parameter, and with distinct names each parameter is bound by the per-parameter rule |
| Synthesizer.BindingRules | synth.py:43-49 | a property's value wins; otherwise a buffer parameter gets its upstream result or a buffer filled with its default, a context parameter gets the render context, and any other parameter is not passed |
| Synthesizer.InitialState | synth.py:24-27 | a new synthesizer has no sound buffer and no render context, and a playback speed factor of 1.0 |
| Synthesizer.OutputNodes | synth.py:54 | exactly the nodes whose function is an output function |
| Synthesizer.PropertyValue | synth.py:58-59 | a property's current value, or a missing-key error exactly when the node has no such property |
| Synthesizer.AsNumber | synth.py:11-14 | an int value enters the render context's multiplication as its own value and a float as itself; anything else, a missing default included, fails with a non-number error naming the property |
| Synthesizer.ContextOf | synth.py:58 | the render context is built exactly when both lookups and both conversions succeed, and then holds `sampleRate`, `length` and `samples = length * rate`; otherwise the error is that of the first failing step, in the order `sampleRate` lookup, `length` lookup, `sampleRate` number, `length` number |
| Synthesizer.Synthesize | synth.py:53-60 | "Exactly one Output node required." exactly when there is not one output node, with the state untouched; with one output node, the steps below on that node; on success the context, speed factor and buffer are set and the buffer is the output node's evaluation from an empty path; on failure the old buffer stays |
| Synthesizer.SynthesizeFrom | synth.py:58-60 | the attributes are written one at a time: a context that cannot be built fails with its own error and writes nothing; a missing `playbackSpeedFactor` fails after the context is written; otherwise the context and speed factor are written, the outcome is the output node's evaluation from an empty path, and the buffer is replaced only when that succeeds |
| Synthesizer.OutputTableContext | synth.py:58-59 | a new `Output` node's table gives the render context 44100 per second for 2 seconds, 88200 samples, and the speed factor 1.0 |
| Synthesizer.SynthesizeSucceeds | synth.py:53-60 | with one output node whose `sampleRate` and `length` are numbers and which has a `playbackSpeedFactor`, a ranked (acyclic) graph synthesizes successfully and the result becomes the sound buffer |
| Synthesizer.SynthesizeDetectsLoop | synth.py:34-35 | when the output node's context and speed factor are readable but the node lies on a cycle or downstream of one, synthesis fails with "No loops allowed in graph." and keeps the old sound buffer |
| Synthesizer.BindUpstreamFails | synth.py:33-38 | a blocked connection among a knob's connections makes the loop fail |
| Synthesizer.CollectInputsFails | synth.py:31-38 | a blocked connection at any input knob makes the knob loop fail |
| Synthesizer.UpstreamFailureAborts | synth.py:29-38 | a connection into the node whose upstream node is on the path or fails makes the node's evaluation fail |
| Synthesizer.LoopOnPathRaises | synth.py:33-35 | an upstream node already on the path raises "No loops allowed in graph." |
| Synthesizer.CycleFails | synth.py:29-38 | a node on a cycle, or downstream of one, fails with the loop error whatever path reaches it |
| Synthesizer.BindUpstreamSucceeds | synth.py:33-38 | when every connection is clear, following them succeeds |
| Synthesizer.CollectInputsSucceeds | synth.py:31-38 | when every connection into every input knob is clear, the knob loop succeeds |
| Synthesizer.AcyclicSucceeds | synth.py:29-51 | no false alarms: in a graph ranked so that every connection goes from lower to higher rank, every node evaluates (node functions being total in the model) |
| Synthesizer.BindUpstreamWrites | synth.py:38 | following a knob's connections writes the knob's name and no other entry |
| Synthesizer.CollectInputsFrame | synth.py:31-38 | a name no connected input knob carries keeps its entry, or its absence |
| Synthesizer.CollectInputsHit | synth.py:31-38 | an input knob with one connection stores the upstream node's result under its name |
| Synthesizer.ConnectedBufferBinding | synth.py:36-47 | a connected buffer parameter is bound to the result of evaluating its upstream node with the current node pushed on the path |
| Synthesizer.UnconnectedBufferBinding | synth.py:46-47 | an unconnected buffer parameter is bound to a buffer filled with its default |
| PropertyEditor.ToLower | propertyeditor.py:11 | an ASCII capital maps to the lower-case letter at the same alphabet offset |
| PropertyEditor.CamelCaseToWords | propertyeditor.py:5-12 | the label is one character longer per ASCII capital and holds no ASCII capital |
| PropertyEditor.CamelCaseToWordsLoop | propertyeditor.py:5-12 | the accumulating character loop computes the label |
| PropertyEditor.CamelCaseConcat | propertyeditor.py:7-11 | the transform distributes over concatenation |
| PropertyEditor.CamelCaseAt | propertyeditor.py:7-11 | input character i lands at i plus the capitals before it, as a space and its lower-case letter if it is an ASCII capital, unchanged otherwise (non-ASCII capitals included) |
| PropertyEditor.CamelCaseFixedPoint | propertyeditor.py:8-11 | a text is its own label exactly when it has no ASCII capital |
| PropertyEditor.NoUpperUnchanged | propertyeditor.py:8-9 | a text without ASCII capitals is returned unchanged |
| PropertyEditor.CamelCaseIdempotent | propertyeditor.py:5-12 | converting a label again changes nothing |
| PropertyEditor.PropertyChanged | propertyeditor.py:49-54 | without a non-empty name and a type nothing happens; otherwise the edit fails exactly when conversion fails; a success replaces only the edited key's entry with (type, converted value), keeping the other keys and the key order |
| PropertyEditor.EditProperty | propertyeditor.py:49-54 | the panel holds the selected node's own table (glfloweditor.py:292), so an edit rewrites that node's properties in place: it fails exactly when the table update fails, and on success the node keeps its position, identity, function and knobs, every other node and all connections, selection and identities stay; with no selection nothing changes |
| PropertyEditor.EditPropertyKeepsWf | propertyeditor.py:49-54 | a property edit keeps the editor invariant, and the node found by the selected identity afterwards carries the edited table |
| PropertyEditor.ReplaceNodeKeepsWf | glfloweditor.py:292 | replacing a node by one with the same identity and knobs keeps the invariant, and the new node is found by that identity |
| PropertyEditor.ReplaceNodeMembers | glfloweditor.py:292 | after the replacement the list holds the new node and every other old node, and stays free of duplicates |
| Audio.StreamCallback | audio.py:13-28 | exactly 4 × frame_count bytes are played; a short queue is played whole, padded with zeros, and emptied; a long queue gives its requested prefix and keeps the rest; the status is always continue |
| Audio.CallbackConserves | audio.py:19-26 | played bytes followed by the new queue equal the old queue followed by the zero padding |
| Audio.Play | audio.py:42-46 | the new bytes are appended and the queued bytes are untouched |
| Audio.PlayDoesNotOvertake | audio.py:13-46 | first in, first out: when the queue already covers the request, appending first changes nothing that is played and the new bytes wait behind the remainder |
| Audio.Drain | audio.py:13-28 | a run of callbacks plays 4 bytes per requested frame |
| Audio.DrainConserves | audio.py:13-28 | over any run of callbacks the device hears the queued bytes in order, then zeros for whatever the queue could not supply |

## Left out

- Drawing, geometry and Qt plumbing (`draw`, `paintGL`, `getPosition`,
  `isInShape`, `pickKnob`, `contextMenuEvent`, message boxes). A mouse hit is
  given as the node index or knob it landed on. A message-box answer is given
  as a boolean.
- `mainwindow.py` and the signal generators of `nodes.py`. These are UI
  wiring and floating-point numpy code.
- `Synthesizer.play`: it resamples with scipy's `interp1d` over float grids.
- `SynthBuffer`'s ndarray construction. A filled buffer is the abstract term
  `Filled(default)` and has no length. `SynthBuffer(0.0)` does not actually
  fill, which the abstract term does not distinguish.
- `Output` returns `None` in the source. The model keeps its result symbolic,
  as `Call(Output, bindings)`, like every node's.
- Multiplying a string property by a number, which Python allows. A property
  value that is neither an int nor a float makes the render context fail
  with `NotANumber`.
- `inspect.signature` reflection is replaced by explicit parameter
  descriptors. `VAR_KEYWORD` parameters are not rejected, as in the source.
- `printReport` prints to the console.
- `loadProperties` fills the table widget (display only). Only the label
  transform it uses is modelled.
- `reinitAudio` and pyaudio device setup are foreign I/O.
- The semaphore is not modelled. Each callback and each `play` is one atomic
  step.
- `play`'s float32-to-bytes encoding is left out. `Audio.Play` takes the
  encoded bytes.
- PropertyEditor.PropertyChanged: `type(item.text())` is a parameter
  `convert`. A raised conversion exception becomes an `Err` result instead of
  propagating to Qt.
- Synthesizer.Synthesize: a missing or non-numeric `sampleRate`/`length`
  property, and the `KeyError` of a missing `playbackSpeedFactor`, are
  returned as errors rather than raised.
- Synth.NewSynthParameters: Python floats are modelled as exact reals. There is
  no IEEE-754 rounding (`0.1 * 44100` is exactly 4410 here), and no `inf` or
  `nan`, although `type(item.text())` can produce them. An int-by-int product,
  which stays a Python int, also becomes a real. The result type is not kept.
- Synthesizer.AsNumber: an int or float property value is turned into an exact
  real, with the same limits as `Synth.NewSynthParameters`.
- Synthesizer.EvalNode: node functions are total in the model. A node's result
  is the term `Call(func, bindings)`, which never fails. An exception raised by
  `node.func(**parameters)` (synth.py:51) is not modelled, so
  `Synthesizer.AcyclicSucceeds` and `Synthesizer.SynthesizeSucceeds` promise
  success only under that assumption.
- PropertyEditor.EditProperty: after the selected node is deleted, the panel
  still shows the deleted node's table. An edit there changes a table that is
  no longer in the graph, so the model leaves the editor as it is.
- Synthesizer.BindingRules: holds by the contract of `BindParameters` alone.
  It spells the five cases out.

=== FILE: audio.dfy ===
/** The playback queue of audio.py: `play` appends encoded samples to a
    byte queue, and the audio device's `streamCallback` takes a fixed number
    of bytes from its front, padding with silence when the queue runs dry.
    The semaphore-guarded sections are modelled as atomic steps. */
module Audio {

  newtype byte = x: int | 0 <= x < 256

  /** The stream is opened mono with `paFloat32` samples: one frame is
      four bytes. */
  const BytesPerFrame: nat := 4

  /** The status the callback hands back to the audio library. */
  datatype StreamStatus = Continue

  /** The bytes handed to the device, the queue left behind, the status. */
  datatype CallbackResult = CallbackResult(played: seq<byte>, queue: seq<byte>, status: StreamStatus)

  /** `b"\x00" * n`. */
  function Silence(n: nat): (r: seq<byte>)
    ensures |r| == n && forall i :: 0 <= i < n ==> r[i] == 0
  {
    seq(n, _ => 0)
  }

  lemma SilenceConcat(a: nat, b: nat)
    ensures Silence(a) + Silence(b) == Silence(a + b)
  {
  }

  /** `streamCallback(input, frame_count, ...)`: the device asks for
      `frame_count` frames. When the queue holds no more than that, all of
      it is played followed by silence and the queue empties; otherwise
      exactly the requested prefix is played and the rest stays queued. */
  function StreamCallback(queue: seq<byte>, frameCount: nat): (r: CallbackResult)
    ensures |r.played| == BytesPerFrame * frameCount
    ensures |queue| <= BytesPerFrame * frameCount ==>
      && r.queue == []
      && r.played[..|queue|] == queue
      && forall i :: |queue| <= i < |r.played| ==> r.played[i] == 0
    ensures |queue| > BytesPerFrame * frameCount ==> r.played + r.queue == queue
    ensures r.status == Continue
  {
    var requested := BytesPerFrame * frameCount;
    var l := |queue|;
    if l <= requested then
      CallbackResult(queue[..l] + Silence(requested - l), [], Continue)
    else
      CallbackResult(queue[..requested], queue[requested..], Continue)
  }

  /** The bytes still owed once `requested` bytes are taken from a queue
      of `available` bytes. */
  function Shortfall(requested: nat, available: nat): nat
  {
    if requested > available then requested - available else 0
  }

  /** No byte is lost, duplicated or reordered: what is played followed by
      what remains is the old queue followed by the silence padding. */
  lemma CallbackConserves(queue: seq<byte>, frameCount: nat)
    ensures var r := StreamCallback(queue, frameCount);
      r.played + r.queue == queue + Silence(Shortfall(BytesPerFrame * frameCount, |queue|))
  {
    var r := StreamCallback(queue, frameCount);
    if |queue| <= BytesPerFrame * frameCount {
      assert queue[..|queue|] == queue;
    }
  }

  /** `play(buffer)`: the encoded samples go to the back of the queue. */
  function Play(queue: seq<byte>, samples: seq<byte>): (r: seq<byte>)
    ensures |r| == |queue| + |samples|
    ensures r[..|queue|] == queue && r[|queue|..] == samples
  {
    queue + samples
  }

  /** First in, first out: when the queue already covers the request,
      queuing more samples first changes nothing about what is played, and
      the new samples wait behind the remainder. */
  lemma PlayDoesNotOvertake(queue: seq<byte>, samples: seq<byte>, frameCount: nat)
    requires |queue| >= BytesPerFrame * frameCount
    ensures var before := StreamCallback(queue, frameCount);
      var after := StreamCallback(Play(queue, samples), frameCount);
      after.played == before.played && after.queue == before.queue + samples
  {
    var n := BytesPerFrame * frameCount;
    var q := Play(queue, samples);
    assert q[..n] == queue[..n];
    if |queue| == n {
      assert queue[..|queue|] == queue;
      assert q[n..] == samples;
    } else {
      assert q[n..] == queue[n..] + samples;
    }
  }

  /** The device's successive requests, in frames, against one queue. */
  datatype Playback = Playback(played: seq<byte>, queue: seq<byte>)

  function TotalFrames(frames: seq<nat>): nat
  {
    if |frames| == 0 then 0 else frames[0] + TotalFrames(frames[1..])
  }

  /** Running the callback once per request, collecting what is played. */
  function Drain(queue: seq<byte>, frames: seq<nat>): (r: Playback)
    ensures |r.played| == BytesPerFrame * TotalFrames(frames)
    decreases |frames|
  {
    if |frames| == 0 then Playback([], queue)
    else
      var c := StreamCallback(queue, frames[0]);
      var rest := Drain(c.queue, frames[1..]);
      Playback(c.played + rest.played, rest.queue)
  }

  /** The silence owed over two requests adds up, given what the first
      request leaves queued. */
  lemma ShortfallAdds(now: nat, later: nat, available: nat, left: nat)
    requires left == if available > now then available - now else 0
    ensures Shortfall(now, available) + Shortfall(later, left) == Shortfall(now + later, available)
  {
  }

  /** Over any run of callbacks the device hears the queued bytes in order,
      then silence for whatever the queue could not supply. */
  lemma {:induction false} DrainConserves(queue: seq<byte>, frames: seq<nat>)
    ensures var r := Drain(queue, frames);
      r.played + r.queue == queue + Silence(Shortfall(BytesPerFrame * TotalFrames(frames), |queue|))
    decreases |frames|
  {
    if |frames| > 0 {
      var c := StreamCallback(queue, frames[0]);
      var rest := Drain(c.queue, frames[1..]);
      var now := BytesPerFrame * frames[0];
      var later := BytesPerFrame * TotalFrames(frames[1..]);
      calc {
        Drain(queue, frames).played + Drain(queue, frames).queue;
        c.played + (rest.played + rest.queue);
        { DrainConserves(c.queue, frames[1..]); }
        c.played + (c.queue + Silence(Shortfall(later, |c.queue|)));
        { CallbackConserves(queue, frames[0]); }
        queue + (Silence(Shortfall(now, |queue|)) + Silence(Shortfall(later, |c.queue|)));
        { SilenceConcat(Shortfall(now, |queue|), Shortfall(later, |c.queue|));
          ShortfallAdds(now, later, |queue|, |c.queue|); }
        queue + Silence(Shortfall(now + later, |queue|));
      }
    }
  }
}

=== FILE: common.dfy ===
/** Failure-compatible wrappers shared by every module of the model: the
    Python source signals errors by raising exceptions, which the model
    returns as `Err` values instead. */
module Common {

  datatype Option<+T> = None | Some(value: T)

  datatype Result<+T, +E> = Ok(value: T) | Err(error: E) {
    predicate IsFailure() {
      Err?
    }

    function PropagateFailure<U>(): Result<U, E>
      requires Err?
    {
      Err(error)
    }

    function Extract(): T
      requires Ok?
    {
      value
    }
  }
}

=== FILE: decorators.dfy ===
/** The function registry of decorators.py: `registerFunction` appends a
    function to the registry and then checks its signature parameter by
    parameter; `getRegisteredFunctions` hands the registry out in
    registration order. Reflection through `inspect.signature` is replaced
    by an explicit parameter descriptor. */
module Decorators {
  import opened Common

  /** The `inspect.Parameter.kind` values. */
  datatype ParameterKind =
    | PositionalOnly
    | PositionalOrKeyword
    | VarPositional
    | KeywordOnly
    | VarKeyword

  /** A parameter's annotation; `NoAnnotation` is `inspect.Parameter.empty`.
      The two classes of synth.py that the editor and the synthesizer
      recognise get their own constructors, every other annotation is
      known by its name only. */
  datatype Annotation =
    | NoAnnotation
    | SynthBufferType
    | SynthParametersType
    | OtherType(typeName: string)

  /** A literal default or property value. */
  datatype Literal =
    | IntLit(i: int)
    | RealLit(r: real)
    | StrLit(s: string)
    | NoneLit

  /** A parameter's default; `NoDefault` is `inspect.Parameter.empty`. */
  datatype Default = NoDefault | Given(value: Literal)

  datatype Parameter = Parameter(name: string, kind: ParameterKind, annotation: Annotation, default: Default)

  /** A Python function as the registry sees it. `id` stands for the
      function object's identity, so two functions with equal signatures
      remain distinguishable. */
  datatype Func = Func(id: nat, name: string, parameters: seq<Parameter>)

  /** The four `ValueError`s that registration raises. */
  datatype SignatureError =
    | KeywordArguments(funcName: string)
    | ArgumentLists(funcName: string)
    | MissingDefault
    | UnexpectedDefault

  function Message(e: SignatureError): string
  {
    match e
    case KeywordArguments(f) => "Cannot wrap keyword arguments of function " + f + "(...)"
    case ArgumentLists(f) => "Cannot wrap argument lists of function " + f + "(...)"
    case MissingDefault => "Non data parameters must have default values."
    case UnexpectedDefault => "Data parameters may not have default values."
  }

  predicate HasAnnotation(p: Parameter) { p.annotation != NoAnnotation }

  predicate HasDefault(p: Parameter) { p.default != NoDefault }

  /** The checks of one loop iteration, in the source's order: the kind
      checks come first, so a keyword-only or variadic parameter is
      rejected whatever its annotation and default. A parameter passes
      exactly when its kind is supported and it has both an annotation and
      a default, or neither. */
  function CheckParameter(funcName: string, p: Parameter): (r: Option<SignatureError>)
    ensures r.None? <==>
      p.kind != KeywordOnly && p.kind != VarPositional && (HasAnnotation(p) <==> HasDefault(p))
    ensures r == Some(KeywordArguments(funcName)) <==> p.kind == KeywordOnly
    ensures r == Some(ArgumentLists(funcName)) <==> p.kind == VarPositional
    ensures r == Some(MissingDefault) <==>
      p.kind != KeywordOnly && p.kind != VarPositional && HasAnnotation(p) && !HasDefault(p)
    ensures r == Some(UnexpectedDefault) <==>
      p.kind != KeywordOnly && p.kind != VarPositional && !HasAnnotation(p) && HasDefault(p)
  {
    if p.kind == KeywordOnly then Some(KeywordArguments(funcName))
    else if p.kind == VarPositional then Some(ArgumentLists(funcName))
    else if p.annotation != NoAnnotation && p.default == NoDefault then Some(MissingDefault)
    else if p.annotation == NoAnnotation && p.default != NoDefault then Some(UnexpectedDefault)
    else None
  }

  /** `i` is the first parameter that fails its check. */
  predicate FirstOffence(funcName: string, ps: seq<Parameter>, i: int)
  {
    && 0 <= i < |ps|
    && CheckParameter(funcName, ps[i]).Some?
    && forall j :: 0 <= j < i ==> CheckParameter(funcName, ps[j]).None?
  }

  /** The signature loop: parameters are checked in declaration order and
      the first failing one raises. */
  function ValidateSignature(funcName: string, ps: seq<Parameter>): (r: Option<SignatureError>)
    ensures r.None? <==> forall i :: 0 <= i < |ps| ==> CheckParameter(funcName, ps[i]).None?
  {
    if |ps| == 0 then None
    else
      var e := CheckParameter(funcName, ps[0]);
      if e.Some? then e else ValidateSignature(funcName, ps[1..])
  }

  /** The error reported is the one of the first offending parameter, and
      the first offending parameter's error is the one reported. */
  lemma {:induction false} FirstOffenceDecides(funcName: string, ps: seq<Parameter>, i: int)
    requires 0 <= i < |ps|
    ensures FirstOffence(funcName, ps, i) <==>
      (ValidateSignature(funcName, ps).Some? && ValidateSignature(funcName, ps) == CheckParameter(funcName, ps[i])
       && forall j :: 0 <= j < i ==> CheckParameter(funcName, ps[j]).None?)
  {
    if i > 0 {
      if CheckParameter(funcName, ps[0]).None? {
        FirstOffenceDecides(funcName, ps[1..], i - 1);
        assert forall j :: 1 <= j < i ==> ps[j] == ps[1..][j - 1];
      }
    }
  }

  /** Every rejected signature has a first offending parameter, and its
      error is the reported one. */
  lemma {:induction false} RejectionHasFirstOffence(funcName: string, ps: seq<Parameter>)
    requires ValidateSignature(funcName, ps).Some?
    ensures exists i :: FirstOffence(funcName, ps, i) && ValidateSignature(funcName, ps) == CheckParameter(funcName, ps[i])
  {
    if CheckParameter(funcName, ps[0]).Some? {
      assert FirstOffence(funcName, ps, 0);
    } else {
      RejectionHasFirstOffence(funcName, ps[1..]);
      var i :| FirstOffence(funcName, ps[1..], i) && ValidateSignature(funcName, ps[1..]) == CheckParameter(funcName, ps[1..][i]);
      assert forall j :: 1 <= j < i + 1 ==> ps[j] == ps[1..][j - 1];
      assert FirstOffence(funcName, ps, i + 1);
    }
  }

  /** The state `registerFunction` leaves behind: the registry and either
      the function itself or the error raised. */
  datatype Registration = Registration(registry: seq<Func>, outcome: Result<Func, SignatureError>)

  /** `registerFunction`: the function is appended to the registry BEFORE
      its signature is checked, so the registry grows by this one entry
      even when registration raises. An accepted function is returned
      unchanged. */
  function RegisterFunction(registry: seq<Func>, f: Func): (r: Registration)
    ensures r.registry == registry + [f]
    ensures r.outcome.Ok? <==>
      forall i :: 0 <= i < |f.parameters| ==>
        && f.parameters[i].kind != KeywordOnly
        && f.parameters[i].kind != VarPositional
        && (HasAnnotation(f.parameters[i]) <==> HasDefault(f.parameters[i]))
    ensures r.outcome.Ok? ==> r.outcome.value == f
    ensures r.outcome.Err? ==> exists i :: FirstOffence(f.name, f.parameters, i) && Some(r.outcome.error) == CheckParameter(f.name, f.parameters[i])
  {
    var registry' := registry + [f];
    match ValidateSignature(f.name, f.parameters)
    case None => Registration(registry', Ok(f))
    case Some(e) =>
      RejectionHasFirstOffence(f.name, f.parameters);
      Registration(registry', Err(e))
  }

  /** `getRegisteredFunctions`: the registry as a tuple. */
  function GetRegisteredFunctions(registry: seq<Func>): seq<Func>
  {
    registry
  }

  /** Registers each function of `fs` in turn, whatever the outcome of
      the others. */
  function RegisterAll(registry: seq<Func>, fs: seq<Func>): seq<Func>
    decreases |fs|
  {
    if |fs| == 0 then registry
    else RegisterAll(RegisterFunction(registry, fs[0]).registry, fs[1..])
  }

  /** Whatever the outcome of each registration, the registry lists every
      registered function once, in registration order. */
  lemma {:induction false} RegistrationOrder(registry: seq<Func>, fs: seq<Func>)
    ensures GetRegisteredFunctions(RegisterAll(registry, fs)) == registry + fs
    decreases |fs|
  {
    if |fs| > 0 {
      RegistrationOrder(registry + [fs[0]], fs[1..]);
      assert registry + [fs[0]] + fs[1..] == registry + fs;
    }
  }
}

=== FILE: glfloweditor.dfy ===
/** The graph structure behind glfloweditor.py: flow nodes with their knobs
    and property tables, connections between an input and an output knob,
    and the edits the editor makes to its node and connection lists.
    Drawing, geometry and Qt plumbing are not modelled; a mouse hit is
    given as the node index or knob it landed on, and a message-box
    answer as a boolean. */
module FlowEditor {
  import opened Common
  import opened Decorators
  import Synth
  import Seqs

  /** The identity of a node object; the editor hands out fresh ones. */
  type NodeId = nat

  datatype KnobType = InputKnob | OutputKnob

  /** `FlowKnob(node, type, name, index)`; the output knob has index -1. */
  datatype Knob = Knob(node: NodeId, kind: KnobType, name: string, index: int)

  /** One entry `name: (annotation, value)` of a node's property table. */
  datatype Property = Property(name: string, annotation: Annotation, value: Default)

  datatype Node = Node(id: NodeId, func: Func, knobs: seq<Knob>, properties: seq<Property>)

  /** A connection, always stored as (input knob, output knob). */
  datatype Connection = Connection(inputKnob: Knob, outputKnob: Knob)

  /** The two `FlowConnectionError`s. */
  datatype FlowConnectionError = InvalidConnection | KnobAlreadyConnected

  function ErrorMessage(e: FlowConnectionError): string
  {
    match e
    case InvalidConnection => "Invalid connection."
    case KnobAlreadyConnected => "Knob already connected."
  }

  /** `GLFlowEditor`: the available functions, the output functions, the
      nodes front to back (index 0 is drawn on top), the connections, the
      selected node, and the next fresh node identity. */
  datatype Editor = Editor(
    functions: seq<Func>,
    outputFunctions: seq<Func>,
    nodes: seq<Node>,
    connections: seq<Connection>,
    selected: Option<NodeId>,
    nextId: NodeId)

  // ---------------------------------------------------------------------
  // Property tables (an `OrderedDict` from parameter name to entry)
  // ---------------------------------------------------------------------

  /** The keys of a property table, in order. */
  function Names(props: seq<Property>): (r: seq<string>)
    ensures |r| == |props|
    ensures forall i :: 0 <= i < |props| ==> r[i] == props[i].name
  {
    if |props| == 0 then [] else [props[0].name] + Names(props[1..])
  }

  /** `props[name]`, or `None` when the key is missing. */
  function LookupProperty(props: seq<Property>, name: string): (r: Option<Property>)
    ensures r.Some? <==> name in Names(props)
    ensures r.Some? ==> r.value in props && r.value.name == name
  {
    if |props| == 0 then None
    else if props[0].name == name then Some(props[0])
    else LookupProperty(props[1..], name)
  }

  /** `props[name] = (annotation, value)`: an existing key keeps its
      position and only its entry changes, a new key is appended. */
  function SetProperty(props: seq<Property>, name: string, annotation: Annotation, value: Default): (r: seq<Property>)
    ensures Names(r) == if name in Names(props) then Names(props) else Names(props) + [name]
    ensures name !in Names(props) ==> r == props + [Property(name, annotation, value)]
  {
    var entry := Property(name, annotation, value);
    if |props| == 0 then [entry]
    else if props[0].name == name then
      NamesCons(props[0], props[1..]);
      NamesCons(entry, props[1..]);
      [entry] + props[1..]
    else
      var rest := SetProperty(props[1..], name, annotation, value);
      NamesCons(props[0], props[1..]);
      NamesCons(props[0], rest);
      [props[0]] + rest
  }

  /** Assigning `name` leaves every entry under another key in place. */
  lemma {:induction false} SetPropertyKeepsOthers(props: seq<Property>, name: string, annotation: Annotation, value: Default, i: int)
    requires 0 <= i < |props| && props[i].name != name
    ensures i < |SetProperty(props, name, annotation, value)|
    ensures SetProperty(props, name, annotation, value)[i] == props[i]
  {
    if props[0].name != name && i > 0 {
      SetPropertyKeepsOthers(props[1..], name, annotation, value, i - 1);
    }
  }

  lemma NamesCons(p: Property, props: seq<Property>)
    ensures Names([p] + props) == [p.name] + Names(props)
  {
    assert ([p] + props)[1..] == props;
  }

  /** After `props[name] = entry`, looking `name` up yields the new entry
      and every other key yields what it did before. */
  lemma {:induction false} SetPropertyLookup(props: seq<Property>, name: string, annotation: Annotation, value: Default)
    ensures LookupProperty(SetProperty(props, name, annotation, value), name) == Some(Property(name, annotation, value))
    ensures forall m :: m != name ==> LookupProperty(SetProperty(props, name, annotation, value), m) == LookupProperty(props, m)
  {
    SetPropertyLookupSame(props, name, annotation, value);
    forall m | m != name
      ensures LookupProperty(SetProperty(props, name, annotation, value), m) == LookupProperty(props, m)
    {
      SetPropertyLookupOther(props, name, annotation, value, m);
    }
  }

  lemma {:induction false} SetPropertyLookupSame(props: seq<Property>, name: string, annotation: Annotation, value: Default)
    ensures LookupProperty(SetProperty(props, name, annotation, value), name) == Some(Property(name, annotation, value))
  {
    if |props| > 0 && props[0].name != name {
      var r := SetProperty(props, name, annotation, value);
      SetPropertyLookupSame(props[1..], name, annotation, value);
      assert r == [props[0]] + SetProperty(props[1..], name, annotation, value);
      assert r[1..] == SetProperty(props[1..], name, annotation, value);
    }
  }

  lemma {:induction false} SetPropertyLookupOther(props: seq<Property>, name: string, annotation: Annotation, value: Default, m: string)
    requires m != name
    ensures LookupProperty(SetProperty(props, name, annotation, value), m) == LookupProperty(props, m)
  {
    if |props| > 0 && props[0].name != name {
      var r := SetProperty(props, name, annotation, value);
      SetPropertyLookupOther(props[1..], name, annotation, value, m);
      assert r == [props[0]] + SetProperty(props[1..], name, annotation, value);
      assert r[1..] == SetProperty(props[1..], name, annotation, value);
    }
  }

  // ---------------------------------------------------------------------
  // Node construction (`FlowNode.__init__`, `getInputKnobCount`)
  // ---------------------------------------------------------------------

  /** A parameter annotated `SynthBuffer` becomes an input knob. */
  predicate IsBufferParameter(p: Parameter) { p.annotation == SynthBufferType }

  /** A parameter annotated `SynthParameters` becomes neither knob nor property. */
  predicate IsContextParameter(p: Parameter) { p.annotation == SynthParametersType }

  /** Every other parameter becomes a property. */
  predicate IsPropertyParameter(p: Parameter) { !IsBufferParameter(p) && !IsContextParameter(p) }

  function BufferParameters(ps: seq<Parameter>): seq<Parameter>
  {
    Seqs.Filter(ps, IsBufferParameter)
  }

  function PropertyParameters(ps: seq<Parameter>): seq<Parameter>
  {
    Seqs.Filter(ps, IsPropertyParameter)
  }

  /** The property entry a parameter starts with: `(annotation, default)`. */
  function PropertyOf(p: Parameter): Property
  {
    Property(p.name, p.annotation, p.default)
  }

  /** Python rejects a signature that repeats a parameter name. */
  predicate DistinctParameterNames(ps: seq<Parameter>)
  {
    forall i, j :: 0 <= i < j < |ps| ==> ps[i].name != ps[j].name
  }

  predicate IsInputKnob(k: Knob) { k.kind == InputKnob }

  /** `getInputKnobCount`: how many of the knobs are input knobs. */
  function InputKnobCount(knobs: seq<Knob>): (r: nat)
    ensures r <= |knobs|
    ensures r == 0 <==> forall k :: k in knobs ==> !IsInputKnob(k)
  {
    var inputs := Seqs.Filter(knobs, IsInputKnob);
    assert |inputs| > 0 ==> inputs[0] in inputs;
    |inputs|
  }

  function OutputKnobOf(id: NodeId): Knob
  {
    Knob(id, OutputKnob, "Output", -1)
  }

  /** The knobs a node has before its input knobs: one output knob unless
      its function is an output function. */
  function LeadingKnobs(id: NodeId, f: Func, outputFunctions: seq<Func>): seq<Knob>
  {
    if f in outputFunctions then [] else [OutputKnobOf(id)]
  }

  /** The input knobs of node `id` for the buffer parameters `bs`: one per
      parameter, in parameter order, indexed 0, 1, 2, ... */
  function InputKnobsOf(id: NodeId, bs: seq<Parameter>): (r: seq<Knob>)
    ensures |r| == |bs|
  {
    seq(|bs|, j requires 0 <= j < |bs| => Knob(id, InputKnob, bs[j].name, j))
  }

  /** The initial property table for the property parameters `pps`. */
  function PropertiesOf(pps: seq<Parameter>): (r: seq<Property>)
    ensures |r| == |pps|
  {
    seq(|pps|, j requires 0 <= j < |pps| => PropertyOf(pps[j]))
  }

  /** While the table is being built, the next parameter's name is not yet
      a key, because parameter names are distinct. */
  lemma FreshPropertyName(ps: seq<Parameter>, i: int)
    requires DistinctParameterNames(ps)
    requires 0 <= i < |ps|
    ensures ps[i].name !in Names(PropertiesOf(PropertyParameters(ps[..i])))
  {
    var props := PropertiesOf(PropertyParameters(ps[..i]));
    forall j | 0 <= j < |props|
      ensures Names(props)[j] != ps[i].name
    {
      var q := PropertyParameters(ps[..i])[j];
      assert q in ps[..i];
      var k :| 0 <= k < i && ps[..i][k] == q;
    }
  }

  /** One more buffer parameter adds one input knob, indexed by the
      number of knobs before it. */
  lemma InputKnobsOfAppend(id: NodeId, bs: seq<Parameter>, p: Parameter)
    ensures InputKnobsOf(id, bs + [p]) == InputKnobsOf(id, bs) + [Knob(id, InputKnob, p.name, |bs|)]
  {
    var l, r := InputKnobsOf(id, bs + [p]), InputKnobsOf(id, bs) + [Knob(id, InputKnob, p.name, |bs|)];
    forall j | 0 <= j < |l| ensures l[j] == r[j] {
      if j < |bs| {
        assert (bs + [p])[j] == bs[j];
      }
    }
  }

  /** One more property parameter adds its entry at the end. */
  lemma PropertiesOfAppend(pps: seq<Parameter>, p: Parameter)
    ensures PropertiesOf(pps + [p]) == PropertiesOf(pps) + [PropertyOf(p)]
  {
    var l, r := PropertiesOf(pps + [p]), PropertiesOf(pps) + [PropertyOf(p)];
    forall j | 0 <= j < |l| ensures l[j] == r[j] {
      if j < |pps| {
        assert (pps + [p])[j] == pps[j];
      }
    }
  }

  /** One loop step extends the input knobs by the next buffer parameter. */
  lemma BufferStep(id: NodeId, ps: seq<Parameter>, i: int)
    requires 0 <= i < |ps|
    ensures InputKnobsOf(id, BufferParameters(ps[..i + 1])) ==
      InputKnobsOf(id, BufferParameters(ps[..i])) +
      (if IsBufferParameter(ps[i]) then [Knob(id, InputKnob, ps[i].name, |BufferParameters(ps[..i])|)] else [])
  {
    var before := BufferParameters(ps[..i]);
    assert ps[..i + 1] == ps[..i] + [ps[i]];
    Seqs.FilterConcat(ps[..i], [ps[i]], IsBufferParameter);
    Seqs.FilterSingleton(ps[i], IsBufferParameter);
    if IsBufferParameter(ps[i]) {
      InputKnobsOfAppend(id, before, ps[i]);
    } else {
      assert before + [] == before;
    }
  }

  /** One loop step extends the property table by the next property parameter. */
  lemma PropertyStep(ps: seq<Parameter>, i: int)
    requires 0 <= i < |ps|
    ensures PropertiesOf(PropertyParameters(ps[..i + 1])) ==
      PropertiesOf(PropertyParameters(ps[..i])) + (if IsPropertyParameter(ps[i]) then [PropertyOf(ps[i])] else [])
  {
    var before := PropertyParameters(ps[..i]);
    assert ps[..i + 1] == ps[..i] + [ps[i]];
    Seqs.FilterConcat(ps[..i], [ps[i]], IsPropertyParameter);
    Seqs.FilterSingleton(ps[i], IsPropertyParameter);
    if IsPropertyParameter(ps[i]) {
      PropertiesOfAppend(before, ps[i]);
    } else {
      assert before + [] == before;
    }
  }

  /** The input knob count of a knob list made of non-input knobs
      followed by input knobs is the number of input knobs. */
  lemma {:induction false} InputKnobCountSplit(head: seq<Knob>, ins: seq<Knob>)
    requires forall j :: 0 <= j < |head| ==> !IsInputKnob(head[j])
    requires forall j :: 0 <= j < |ins| ==> IsInputKnob(ins[j])
    ensures InputKnobCount(head + ins) == |ins|
  {
    Seqs.FilterConcat(head, ins, IsInputKnob);
    Seqs.FilterNone(head, IsInputKnob);
    Seqs.FilterAll(ins, IsInputKnob);
  }

  /** The knob half of one step of the parameter loop: a `SynthBuffer`
      parameter appends an input knob indexed by the input knob count so
      far, which is the next index of `InputKnobsOf`. */
  lemma KnobLoopStep(id: NodeId, ps: seq<Parameter>, i: int, head: seq<Knob>, knobs: seq<Knob>, knobs': seq<Knob>)
    requires 0 <= i < |ps|
    requires forall j :: 0 <= j < |head| ==> !IsInputKnob(head[j])
    requires knobs == head + InputKnobsOf(id, BufferParameters(ps[..i]))
    requires knobs' == if IsBufferParameter(ps[i]) then knobs + [Knob(id, InputKnob, ps[i].name, InputKnobCount(knobs))] else knobs
    ensures knobs' == head + InputKnobsOf(id, BufferParameters(ps[..i + 1]))
  {
    BufferStep(id, ps, i);
    if IsBufferParameter(ps[i]) {
      InputKnobCountSplit(head, InputKnobsOf(id, BufferParameters(ps[..i])));
    }
  }

  /** The property half of one step of the parameter loop: a property
      parameter is a new key, so it is appended to the table. */
  lemma PropertyLoopStep(ps: seq<Parameter>, i: int, properties: seq<Property>, properties': seq<Property>)
    requires DistinctParameterNames(ps) && 0 <= i < |ps|
    requires properties == PropertiesOf(PropertyParameters(ps[..i]))
    requires properties' == if IsPropertyParameter(ps[i]) then SetProperty(properties, ps[i].name, ps[i].annotation, ps[i].default) else properties
    ensures properties' == PropertiesOf(PropertyParameters(ps[..i + 1]))
  {
    PropertyStep(ps, i);
    if IsPropertyParameter(ps[i]) {
      FreshPropertyName(ps, i);
    }
  }

  /** `FlowNode(func)`: an output knob first unless `func` is an output
      function, then one input knob per `SynthBuffer` parameter, indexed by
      the input knob count so far; `SynthParameters` parameters are
      skipped and every other parameter enters the property table. */
  method NewFlowNode(id: NodeId, f: Func, outputFunctions: seq<Func>) returns (n: Node)
    requires DistinctParameterNames(f.parameters)
    ensures n.id == id && n.func == f
    ensures n.knobs == LeadingKnobs(id, f, outputFunctions) + InputKnobsOf(id, BufferParameters(f.parameters))
    ensures n.properties == PropertiesOf(PropertyParameters(f.parameters))
  {
    var ps := f.parameters;
    var knobs: seq<Knob> := [];
    if f !in outputFunctions {
      knobs := [OutputKnobOf(id)];
    }
    ghost var head := knobs;
    var properties: seq<Property> := [];
    var i := 0;
    assert ps[..0] == [];
    while i < |ps|
      invariant 0 <= i <= |ps|
      invariant forall j :: 0 <= j < |head| ==> !IsInputKnob(head[j])
      invariant knobs == head + InputKnobsOf(id, BufferParameters(ps[..i]))
      invariant properties == PropertiesOf(PropertyParameters(ps[..i]))
    {
      knobs, properties := AddParameter(id, ps, i, head, knobs, properties);
      i := i + 1;
    }
    assert ps[..i] == ps;
    n := Node(id, f, knobs, properties);
  }

  /** One iteration of the parameter loop of `FlowNode.__init__`. */
  method AddParameter(id: NodeId, ps: seq<Parameter>, i: int, ghost head: seq<Knob>,
                      knobs: seq<Knob>, properties: seq<Property>) returns (knobs': seq<Knob>, properties': seq<Property>)
    requires DistinctParameterNames(ps) && 0 <= i < |ps|
    requires forall j :: 0 <= j < |head| ==> !IsInputKnob(head[j])
    requires knobs == head + InputKnobsOf(id, BufferParameters(ps[..i]))
    requires properties == PropertiesOf(PropertyParameters(ps[..i]))
    ensures knobs' == head + InputKnobsOf(id, BufferParameters(ps[..i + 1]))
    ensures properties' == PropertiesOf(PropertyParameters(ps[..i + 1]))
  {
    var p := ps[i];
    knobs', properties' := knobs, properties;
    if p.annotation == SynthBufferType {
      knobs' := knobs + [Knob(id, InputKnob, p.name, InputKnobCount(knobs))];
    } else if p.annotation != SynthParametersType {
      properties' := SetProperty(properties, p.name, p.annotation, p.default);
    }
    KnobLoopStep(id, ps, i, head, knobs, knobs');
    PropertyLoopStep(ps, i, properties, properties');
  }

  /** The knobs `FlowNode` builds: the output knob comes first exactly when
      the function is not an output function, the input knob count is the
      number of `SynthBuffer` parameters, and every knob belongs to the
      node. */
  lemma NodeKnobs(id: NodeId, f: Func, outputFunctions: seq<Func>)
    ensures var knobs := LeadingKnobs(id, f, outputFunctions) + InputKnobsOf(id, BufferParameters(f.parameters));
      && ((f !in outputFunctions) <==> (|knobs| > 0 && knobs[0].kind == OutputKnob))
      && InputKnobCount(knobs) == |BufferParameters(f.parameters)|
      && forall k :: k in knobs ==> k.node == id
  {
    InputKnobCountSplit(LeadingKnobs(id, f, outputFunctions), InputKnobsOf(id, BufferParameters(f.parameters)));
  }

  /** Every parameter lands in exactly one of the three classes: input
      knob, render context, or property. */
  lemma {:induction false} ParameterPartition(ps: seq<Parameter>)
    ensures |BufferParameters(ps)| + |Seqs.Filter(ps, IsContextParameter)| + |PropertyParameters(ps)| == |ps|
  {
    if |ps| > 0 {
      ParameterPartition(ps[1..]);
    }
  }

  // ---------------------------------------------------------------------
  // Connections
  // ---------------------------------------------------------------------

  /** `FlowConnection(knobA, knobB)`: the pair is stored as (input, output)
      whichever order it came in; two knobs of the same type are refused. */
  function NewConnection(a: Knob, b: Knob): (r: Result<Connection, FlowConnectionError>)
    ensures r.Ok? <==> a.kind != b.kind
    ensures r.Ok? ==> r.value.inputKnob.kind == InputKnob && r.value.outputKnob.kind == OutputKnob
    ensures r.Ok? ==> {r.value.inputKnob, r.value.outputKnob} == {a, b}
    ensures r.Err? ==> r.error == InvalidConnection
  {
    match (a.kind, b.kind)
    case (InputKnob, OutputKnob) => Ok(Connection(a, b))
    case (OutputKnob, InputKnob) => Ok(Connection(b, a))
    case _ => Err(InvalidConnection)
  }

  /** The argument order of `FlowConnection` does not matter. */
  lemma NewConnectionSymmetric(a: Knob, b: Knob)
    ensures NewConnection(a, b) == NewConnection(b, a)
  {
  }

  predicate Touches(c: Connection, k: Knob)
  {
    c.inputKnob == k || c.outputKnob == k
  }

  /** `findConnections(knob)`: the connections with either end at `knob`,
      in list order. */
  function FindConnections(conns: seq<Connection>, k: Knob): (r: seq<Connection>)
    ensures |r| <= |conns|
    ensures forall c :: c in r <==> c in conns && Touches(c, k)
    ensures forall i :: 0 <= i < |r| ==> Touches(r[i], k)
  {
    if |conns| == 0 then []
    else (if Touches(conns[0], k) then [conns[0]] else []) + FindConnections(conns[1..], k)
  }

  /** The lookup keeps list order: it distributes over concatenation. */
  lemma {:induction false} FindConnectionsConcat(a: seq<Connection>, b: seq<Connection>, k: Knob)
    ensures FindConnections(a + b, k) == FindConnections(a, k) + FindConnections(b, k)
  {
    if |a| == 0 {
      assert a + b == b;
    } else {
      assert (a + b)[1..] == a[1..] + b;
      FindConnectionsConcat(a[1..], b, k);
    }
  }

  /** Each input knob is the input end of at most one connection. */
  predicate SingleInput(conns: seq<Connection>)
  {
    forall i, j :: 0 <= i < j < |conns| ==> conns[i].inputKnob != conns[j].inputKnob
  }

  /** `addConnection`: refused with "Knob already connected." when a
      connection found at the new input knob already has it as input end;
      otherwise the connection is appended. Output knobs may fan out. */
  function AddConnection(conns: seq<Connection>, c: Connection): (r: Result<seq<Connection>, FlowConnectionError>)
    ensures r.Err? <==> exists x :: x in conns && x.inputKnob == c.inputKnob
    ensures r.Err? ==> r.error == KnobAlreadyConnected
    ensures r.Ok? ==> r.value == conns + [c]
    ensures r.Ok? && SingleInput(conns) ==> SingleInput(r.value)
  {
    if exists x :: x in FindConnections(conns, c.inputKnob) && x.inputKnob == c.inputKnob then
      Err(KnobAlreadyConnected)
    else
      Ok(conns + [c])
  }

  /** A connection touches one of the given knobs. */
  predicate TouchesAny(c: Connection, knobs: seq<Knob>)
  {
    c.inputKnob in knobs || c.outputKnob in knobs
  }

  /** The connections that touch none of `knobs`, in their original order:
      what both deletion paths must leave behind. */
  function Survivors(conns: seq<Connection>, knobs: seq<Knob>): (r: seq<Connection>)
    ensures forall c :: c in r <==> c in conns && !TouchesAny(c, knobs)
  {
    if |conns| == 0 then []
    else (if TouchesAny(conns[0], knobs) then [] else [conns[0]]) + Survivors(conns[1..], knobs)
  }

  /** Survivors are taken in list order: the selection distributes over
      concatenation. */
  lemma {:induction false} SurvivorsConcat(a: seq<Connection>, b: seq<Connection>, knobs: seq<Knob>)
    ensures Survivors(a + b, knobs) == Survivors(a, knobs) + Survivors(b, knobs)
  {
    if |a| == 0 {
      assert a + b == b;
    } else {
      assert (a + b)[1..] == a[1..] + b;
      SurvivorsConcat(a[1..], b, knobs);
    }
  }

  /** `[c for c in conns if c not in doomed]`. */
  function Without(conns: seq<Connection>, doomed: seq<Connection>): (r: seq<Connection>)
    ensures forall c :: c in r <==> c in conns && c !in doomed
  {
    if |conns| == 0 then []
    else (if conns[0] in doomed then [] else [conns[0]]) + Without(conns[1..], doomed)
  }

  /** Dropping the members of a list that holds exactly the connections
      touching `knobs` leaves exactly the survivors, in order. */
  lemma {:induction false} WithoutTouching(conns: seq<Connection>, doomed: seq<Connection>, knobs: seq<Knob>)
    requires forall c :: c in conns ==> (c in doomed <==> TouchesAny(c, knobs))
    ensures Without(conns, doomed) == Survivors(conns, knobs)
  {
    if |conns| > 0 {
      assert forall c :: c in conns[1..] ==> c in conns;
      WithoutTouching(conns[1..], doomed, knobs);
    }
  }

  /** Removing, one `list.remove` at a time, the connections found at `k`
      leaves exactly the connections that do not touch `k`, in order. */
  lemma {:induction false} RemoveFoundConnections(conns: seq<Connection>, k: Knob)
    ensures Seqs.RemoveEach(conns, FindConnections(conns, k)) == Survivors(conns, [k])
  {
    if |conns| > 0 {
      var h, t := conns[0], conns[1..];
      assert conns == [h] + t;
      RemoveFoundConnections(t, k);
      if Touches(h, k) {
        RemoveFoundTouching(h, t, k);
      } else {
        RemoveFoundSkipping(h, t, k);
      }
    }
  }

  /** The inductive step when the head does not touch `k`: it is neither
      found nor removed. */
  lemma {:induction false} RemoveFoundSkipping(h: Connection, t: seq<Connection>, k: Knob)
    requires !Touches(h, k)
    requires Seqs.RemoveEach(t, FindConnections(t, k)) == Survivors(t, [k])
    ensures Seqs.RemoveEach([h] + t, FindConnections([h] + t, k)) == Survivors([h] + t, [k])
  {
    var found := FindConnections(t, k);
    assert h !in found;
    calc {
      Seqs.RemoveEach([h] + t, FindConnections([h] + t, k));
      { FindConnectionsSkipsHead(h, t, k); }
      Seqs.RemoveEach([h] + t, found);
      { Seqs.RemoveEachKeepsHead(h, t, found); }
      [h] + Seqs.RemoveEach(t, found);
      [h] + Survivors(t, [k]);
      { assert !TouchesAny(h, [k]); SurvivorsKeepsHead(h, t, [k]); }
      Survivors([h] + t, [k]);
    }
  }

  /** The inductive step when the head touches `k`: it is found first and
      removed first. */
  lemma {:induction false} RemoveFoundTouching(h: Connection, t: seq<Connection>, k: Knob)
    requires Touches(h, k)
    requires Seqs.RemoveEach(t, FindConnections(t, k)) == Survivors(t, [k])
    ensures Seqs.RemoveEach([h] + t, FindConnections([h] + t, k)) == Survivors([h] + t, [k])
  {
    var conns, found := [h] + t, FindConnections(t, k);
    calc {
      Seqs.RemoveEach(conns, FindConnections(conns, k));
      { assert conns[0] == h && conns[1..] == t; }
      Seqs.RemoveEach(conns, [h] + found);
      { assert Seqs.RemoveFirst(conns, h) == t;
        assert ([h] + found)[1..] == found; }
      Seqs.RemoveEach(t, found);
      Survivors(t, [k]);
      { assert conns[0] == h && conns[1..] == t;
        assert TouchesAny(h, [k]); }
      Survivors(conns, [k]);
    }
  }

  lemma {:induction false} FindConnectionsSkipsHead(h: Connection, t: seq<Connection>, k: Knob)
    requires !Touches(h, k)
    ensures FindConnections([h] + t, k) == FindConnections(t, k)
  {
    assert ([h] + t)[0] == h && ([h] + t)[1..] == t;
  }

  lemma {:induction false} SurvivorsKeepsHead(h: Connection, t: seq<Connection>, knobs: seq<Knob>)
    requires !TouchesAny(h, knobs)
    ensures Survivors([h] + t, knobs) == [h] + Survivors(t, knobs)
  {
    assert ([h] + t)[0] == h && ([h] + t)[1..] == t;
  }

  /** The deletion list built by `keyPressEvent`: the connections found at
      each knob, knob by knob. */
  function ConnectionsOfKnobs(conns: seq<Connection>, knobs: seq<Knob>): (r: seq<Connection>)
    ensures forall c :: c in r <==> c in conns && TouchesAny(c, knobs)
  {
    if |knobs| == 0 then []
    else FindConnections(conns, knobs[0]) + ConnectionsOfKnobs(conns, knobs[1..])
  }

  /** The node with identity `id`, the first one if there were several. */
  function NodeById(nodes: seq<Node>, id: NodeId): (r: Option<Node>)
    ensures r.Some? ==> r.value in nodes && r.value.id == id
    ensures r.None? <==> forall n :: n in nodes ==> n.id != id
  {
    if |nodes| == 0 then None
    else if nodes[0].id == id then Some(nodes[0])
    else NodeById(nodes[1..], id)
  }

  function NodeIds(nodes: seq<Node>): set<NodeId>
  {
    set n | n in nodes :: n.id
  }

  predicate KnobInGraph(nodes: seq<Node>, k: Knob)
  {
    exists n :: n in nodes && k in n.knobs
  }

  /** The selected node, if any, is one of the editor's nodes. */
  predicate SelectionValid(ed: Editor)
  {
    ed.selected.Some? ==> NodeById(ed.nodes, ed.selected.value).Some?
  }

  /** No node object occurs twice and no two nodes share an identity. */
  predicate DistinctNodes(nodes: seq<Node>)
  {
    && (forall a, b :: a in nodes && b in nodes && a.id == b.id ==> a == b)
    && (forall n :: n in nodes ==> multiset(nodes)[n] == 1)
  }

  /** Identities are below the next fresh one and knobs belong to their node. */
  predicate KnobsOwned(nodes: seq<Node>, nextId: NodeId)
  {
    forall n :: n in nodes ==> n.id < nextId && forall k :: k in n.knobs ==> k.node == n.id
  }

  /** Every connection joins an input knob to an output knob of the graph. */
  predicate ConnectionsJoinGraph(nodes: seq<Node>, conns: seq<Connection>)
  {
    forall c :: c in conns ==>
      && c.inputKnob.kind == InputKnob && c.outputKnob.kind == OutputKnob
      && KnobInGraph(nodes, c.inputKnob) && KnobInGraph(nodes, c.outputKnob)
  }

  /** The editor's invariant: distinct nodes with owned knobs, a valid
      selection, connections between knobs of the graph, and no input knob
      with two connections. */
  predicate Wf(ed: Editor)
  {
    && DistinctNodes(ed.nodes)
    && KnobsOwned(ed.nodes, ed.nextId)
    && SelectionValid(ed)
    && ConnectionsJoinGraph(ed.nodes, ed.connections)
    && SingleInput(ed.connections)
  }

  /** Dropping connections keeps the rest free of shared input knobs. */
  lemma {:induction false} SurvivorsSingleInput(conns: seq<Connection>, knobs: seq<Knob>)
    requires SingleInput(conns)
    ensures SingleInput(Survivors(conns, knobs))
  {
    if |conns| > 0 {
      var t := conns[1..];
      assert SingleInput(t) by {
        forall i, j | 0 <= i < j < |t| ensures t[i].inputKnob != t[j].inputKnob {
          assert t[i] == conns[i + 1] && t[j] == conns[j + 1];
        }
      }
      SurvivorsSingleInput(t, knobs);
      var rest := Survivors(t, knobs);
      if !TouchesAny(conns[0], knobs) {
        var r := [conns[0]] + rest;
        forall i, j | 0 <= i < j < |r| ensures r[i].inputKnob != r[j].inputKnob {
          if i == 0 {
            assert r[j] in t;
            var m :| 0 <= m < |t| && t[m] == r[j];
            assert conns[m + 1] == r[j];
          } else {
            assert r[i] == rest[i - 1] && r[j] == rest[j - 1];
          }
        }
      }
    }
  }

  /** In a well-formed graph an input knob has at most one connection, and
      it is that connection's input end: the one `synthesizer` follows. */
  lemma {:induction false} InputKnobConnection(conns: seq<Connection>, nodes: seq<Node>, k: Knob)
    requires ConnectionsJoinGraph(nodes, conns) && SingleInput(conns)
    requires k.kind == InputKnob
    ensures |FindConnections(conns, k)| <= 1
    ensures forall c :: c in FindConnections(conns, k) ==> c.inputKnob == k
  {
    if |conns| > 0 {
      var t := conns[1..];
      assert SingleInput(t) by {
        forall i, j | 0 <= i < j < |t| ensures t[i].inputKnob != t[j].inputKnob {
          assert t[i] == conns[i + 1] && t[j] == conns[j + 1];
        }
      }
      if Touches(conns[0], k) {
        assert conns[0] in conns;
        forall i | 0 <= i < |t| ensures !Touches(t[i], k) {
          assert t[i] == conns[i + 1] && conns[i + 1] in conns;
        }
        FindConnectionsNone(t, k);
      } else {
        assert forall c :: c in t ==> c in conns;
        InputKnobConnection(t, nodes, k);
      }
    }
  }

  /** Nothing is found at a knob that no connection touches. */
  lemma {:induction false} FindConnectionsNone(conns: seq<Connection>, k: Knob)
    requires forall i :: 0 <= i < |conns| ==> !Touches(conns[i], k)
    ensures FindConnections(conns, k) == []
  {
    if |conns| > 0 {
      FindConnectionsNone(conns[1..], k);
    }
  }

  // ---------------------------------------------------------------------
  // Editor edits
  // ---------------------------------------------------------------------

  /** `addNode(func, x, y)`: a fresh node built by `FlowNode` is appended. */
  method AddNode(ed: Editor, f: Func) returns (r: Editor)
    requires DistinctParameterNames(f.parameters)
    ensures |r.nodes| == |ed.nodes| + 1 && r.nodes[..|ed.nodes|] == ed.nodes
    ensures var n := r.nodes[|ed.nodes|];
      && n.id == ed.nextId && n.func == f
      && n.knobs == LeadingKnobs(n.id, f, ed.outputFunctions) + InputKnobsOf(n.id, BufferParameters(f.parameters))
      && n.properties == PropertiesOf(PropertyParameters(f.parameters))
    ensures r.connections == ed.connections && r.selected == ed.selected && r.nextId == ed.nextId + 1
    ensures r.functions == ed.functions && r.outputFunctions == ed.outputFunctions
    ensures Wf(ed) ==> Wf(r)
  {
    var n := NewFlowNode(ed.nextId, f, ed.outputFunctions);
    NodeKnobs(ed.nextId, f, ed.outputFunctions);
    r := ed.(nodes := ed.nodes + [n], nextId := ed.nextId + 1);
    assert r.nodes[..|ed.nodes|] == ed.nodes;
    if Wf(ed) {
      AppendFreshNodeKeepsWf(ed, n);
    }
  }

  /** Appending a node with the next fresh identity keeps the invariant. */
  lemma AppendFreshNodeKeepsWf(ed: Editor, n: Node)
    requires Wf(ed)
    requires n.id == ed.nextId && forall k :: k in n.knobs ==> k.node == n.id
    ensures Wf(ed.(nodes := ed.nodes + [n], nextId := ed.nextId + 1))
  {
    AppendFreshNodeDistinct(ed.nodes, ed.nextId, n);
    AppendNodeKeepsJoins(ed.nodes, ed.connections, n);
    if ed.selected.Some? {
      NodeByIdExtend(ed.nodes, n, ed.selected.value);
    }
  }

  /** A node with the next fresh identity is new, and its knobs are its own. */
  lemma AppendFreshNodeDistinct(nodes: seq<Node>, nextId: NodeId, n: Node)
    requires DistinctNodes(nodes) && KnobsOwned(nodes, nextId)
    requires n.id == nextId && forall k :: k in n.knobs ==> k.node == n.id
    ensures DistinctNodes(nodes + [n]) && KnobsOwned(nodes + [n], nextId + 1)
  {
    assert n !in nodes;
    assert multiset(nodes + [n]) == multiset(nodes) + multiset{n};
  }

  /** More nodes never disconnect a connection from the graph. */
  lemma AppendNodeKeepsJoins(nodes: seq<Node>, conns: seq<Connection>, n: Node)
    requires ConnectionsJoinGraph(nodes, conns)
    ensures ConnectionsJoinGraph(nodes + [n], conns)
  {
    forall c | c in conns
      ensures KnobInGraph(nodes + [n], c.inputKnob) && KnobInGraph(nodes + [n], c.outputKnob)
    {
      var a :| a in nodes && c.inputKnob in a.knobs;
      var b :| b in nodes && c.outputKnob in b.knobs;
      assert a in nodes + [n] && b in nodes + [n];
    }
  }

  /** Appending a node does not change which node an existing identity names. */
  lemma {:induction false} NodeByIdExtend(nodes: seq<Node>, n: Node, id: NodeId)
    requires NodeById(nodes, id).Some?
    ensures NodeById(nodes + [n], id) == NodeById(nodes, id)
  {
    if nodes[0].id != id {
      assert (nodes + [n])[1..] == nodes[1..] + [n];
      NodeByIdExtend(nodes[1..], n, id);
    }
  }

  /** `GLFlowEditor.__init__`: an empty graph holding one `Output` node,
      built as `FlowNode` builds it under the first identity: one input
      knob `input` (plus an output knob unless `Output` is among the
      output functions) and the table `sampleRate` 44100, `length` 2.0,
      `playbackSpeedFactor` 1.0. */
  method NewEditor(functions: seq<Func>, outputFunctions: seq<Func>) returns (r: Editor)
    ensures Wf(r)
    ensures |r.nodes| == 1 && r.nodes[0].func == Synth.OutputFunc && r.nodes[0].id == 0
    ensures r.nodes[0].knobs == LeadingKnobs(0, Synth.OutputFunc, outputFunctions) + [Knob(0, InputKnob, "input", 0)]
    ensures r.nodes[0].properties == OutputTable()
    ensures r.connections == [] && r.selected == None && r.nextId == 1
    ensures r.functions == functions && r.outputFunctions == outputFunctions
  {
    var empty := Editor(functions, outputFunctions, [], [], None, 0);
    OutputParameterNamesDistinct();
    assert Wf(empty);
    r := AddNode(empty, Synth.OutputFunc);
    OutputNodeShape();
  }

  /** The property table a new `Output` node starts with. */
  function OutputTable(): seq<Property>
  {
    [Property("sampleRate", OtherType("int"), Given(IntLit(44100))),
     Property("length", OtherType("float"), Given(RealLit(2.0))),
     Property("playbackSpeedFactor", OtherType("float"), Given(RealLit(1.0)))]
  }

  /** Each key of the new `Output` table looks up to its own entry. */
  lemma OutputTableEntries()
    ensures LookupProperty(OutputTable(), "sampleRate") == Some(OutputTable()[0])
    ensures LookupProperty(OutputTable(), "length") == Some(OutputTable()[1])
    ensures LookupProperty(OutputTable(), "playbackSpeedFactor") == Some(OutputTable()[2])
  {
    var t := OutputTable();
    assert t[1..][1..] == [t[2]];
    assert "length" != "sampleRate" && "playbackSpeedFactor" != "sampleRate" && "playbackSpeedFactor" != "length";
  }

  /** Of `Output`'s five parameters, `input` becomes the one input knob,
      `synthParameters` is skipped, and the other three fill the table in
      signature order with their defaults. */
  lemma OutputNodeShape()
    ensures InputKnobsOf(0, BufferParameters(Synth.OutputFunc.parameters)) == [Knob(0, InputKnob, "input", 0)]
    ensures PropertiesOf(PropertyParameters(Synth.OutputFunc.parameters)) == OutputTable()
  {
    var ps := Synth.OutputFunc.parameters;
    ParameterClasses(ps);
    TableOfThree(ps[2], ps[3], ps[4]);
    KnobsOfOne(0, ps[1]);
  }

  lemma TableOfThree(a: Parameter, b: Parameter, c: Parameter)
    ensures PropertiesOf([a, b, c]) == [PropertyOf(a), PropertyOf(b), PropertyOf(c)]
  {
  }

  lemma KnobsOfOne(id: NodeId, b: Parameter)
    ensures InputKnobsOf(id, [b]) == [Knob(id, InputKnob, b.name, 0)]
  {
  }

  /** A context parameter, a buffer and three properties, in that order,
      as in the signature of `Output`: the buffer list and the property
      list are read off one tail at a time. */
  lemma ParameterClasses(ps: seq<Parameter>)
    requires |ps| == 5 && IsContextParameter(ps[0]) && IsBufferParameter(ps[1])
    requires IsPropertyParameter(ps[2]) && IsPropertyParameter(ps[3]) && IsPropertyParameter(ps[4])
    ensures BufferParameters(ps) == [ps[1]]
    ensures PropertyParameters(ps) == [ps[2], ps[3], ps[4]]
  {
    var head, tail := [ps[0], ps[1]], [ps[2], ps[3], ps[4]];
    assert ps == head + tail;
    Seqs.FilterConcat(head, tail, IsBufferParameter);
    Seqs.FilterConcat(head, tail, IsPropertyParameter);
    FilterPair(ps[0], ps[1], IsBufferParameter);
    FilterPair(ps[0], ps[1], IsPropertyParameter);
    FilterTriple(ps[2], ps[3], ps[4], IsBufferParameter);
    FilterTriple(ps[2], ps[3], ps[4], IsPropertyParameter);
  }

  lemma FilterPair(a: Parameter, b: Parameter, p: Parameter -> bool)
    ensures Seqs.Filter([a, b], p) == (if p(a) then [a] else []) + (if p(b) then [b] else [])
  {
    assert [a, b] == [a] + [b];
    Seqs.FilterConcat([a], [b], p);
    Seqs.FilterSingleton(a, p);
    Seqs.FilterSingleton(b, p);
  }

  lemma FilterTriple(a: Parameter, b: Parameter, c: Parameter, p: Parameter -> bool)
    requires p(a) == p(b) == p(c)
    ensures Seqs.Filter([a, b, c], p) == if p(a) then [a, b, c] else []
  {
    assert [a, b, c] == [a] + [b, c];
    Seqs.FilterConcat([a], [b, c], p);
    Seqs.FilterSingleton(a, p);
    FilterPair(b, c, p);
  }

  /** The five parameters of `Output` have distinct names. */
  lemma OutputParameterNamesDistinct()
    ensures DistinctParameterNames(Synth.OutputFunc.parameters)
  {
    var ps := Synth.OutputFunc.parameters;
    assert ps[0].name[1] == 'y' && ps[2].name[1] == 'a';
    assert ps[1].name[0] == 'i' && ps[3].name[0] == 'l' && ps[4].name[0] == 'p';
  }

  /** `a` and `b` hold the same nodes, as a multiset. */
  predicate SameNodes(a: seq<Node>, b: seq<Node>)
  {
    multiset(a) == multiset(b)
  }

  /** A left click, given what it hit: the first node under the mouse
      (by index), else the knob under it, else nothing. A hit node is
      swapped with the front node so it is drawn on top and becomes the
      selection; a hit knob only starts a drag; a click on nothing clears
      the selection. Connections never change. */
  function LeftClick(ed: Editor, nodeHit: Option<nat>, knobHit: Option<Knob>): (r: Editor)
    requires nodeHit.Some? ==> nodeHit.value < |ed.nodes|
    ensures r.connections == ed.connections && r.nextId == ed.nextId
    ensures r.functions == ed.functions && r.outputFunctions == ed.outputFunctions
    ensures |r.nodes| == |ed.nodes| && SameNodes(r.nodes, ed.nodes)
    ensures nodeHit.Some? ==>
      var i := nodeHit.value;
      && r.nodes[0] == ed.nodes[i] && r.nodes[i] == ed.nodes[0]
      && (forall j :: 0 <= j < |ed.nodes| && j != 0 && j != i ==> r.nodes[j] == ed.nodes[j])
      && r.selected == Some(ed.nodes[i].id)
    ensures nodeHit.None? && knobHit.Some? ==> r == ed
    ensures nodeHit.None? && knobHit.None? ==> r == ed.(selected := None)
  {
    match nodeHit
    case Some(i) =>
      var node := ed.nodes[i];
      var swapped := ed.nodes[0 := node][i := ed.nodes[0]];
      Seqs.SwapPermutes(ed.nodes, 0, i);
      ed.(nodes := swapped, selected := Some(node.id))
    case None =>
      if knobHit.Some? then ed else ed.(selected := None)
  }

  /** Dropping a knob drag: when the mouse is over another knob, the two
      are joined by a new connection. Two knobs of one type are refused
      with "Invalid connection."; an input knob that is already an input
      end is refused with "Knob already connected."; otherwise exactly
      the new connection is appended. */
  function DropKnob(ed: Editor, from: Knob, target: Option<Knob>): (r: Result<Editor, FlowConnectionError>)
    ensures (target.None? || target.value == from) ==> r == Ok(ed)
    ensures target.Some? && target.value != from && from.kind == target.value.kind ==> r == Err(InvalidConnection)
    ensures target.Some? && target.value != from && from.kind != target.value.kind ==>
      var c := NewConnection(from, target.value).value;
      && (r.Err? <==> exists x :: x in ed.connections && x.inputKnob == c.inputKnob)
      && (r.Err? ==> r.error == KnobAlreadyConnected)
      && (r.Ok? ==> r.value == ed.(connections := ed.connections + [c]))
    ensures r.Ok? ==> r.value.nodes == ed.nodes && r.value.selected == ed.selected
  {
    if target.None? || target.value == from then Ok(ed)
    else
      var c :- NewConnection(from, target.value);
      var conns :- AddConnection(ed.connections, c);
      Ok(ed.(connections := conns))
  }

  /** A right click on a knob removes every connection found at it, with
      one `list.remove` per connection. When the knob is an output knob
      with more than one connection the user is asked first; `confirmed`
      is the answer. */
  function RightClick(ed: Editor, knobHit: Option<Knob>, confirmed: bool): (r: Editor)
    ensures r.nodes == ed.nodes && r.selected == ed.selected && r.nextId == ed.nextId
    ensures r.functions == ed.functions && r.outputFunctions == ed.outputFunctions
    ensures knobHit.None? ==> r == ed
    ensures knobHit.Some? ==>
      var k := knobHit.value;
      if k.kind == OutputKnob && |FindConnections(ed.connections, k)| > 1 && !confirmed
      then r == ed
      else r.connections == Survivors(ed.connections, [k])
  {
    match knobHit
    case None => ed
    case Some(k) =>
      var found := FindConnections(ed.connections, k);
      if k.kind == OutputKnob && |found| > 1 && !confirmed then ed
      else
        RemoveFoundConnections(ed.connections, k);
        ed.(connections := Seqs.RemoveEach(ed.connections, found))
  }

  /** The Delete key with a node selected: once the user confirms, every
      connection found at any of the node's knobs is dropped, the node is
      cut out of the node list at its position (the other nodes keep their
      draw and hit order) and the selection is cleared. */
  function DeleteSelected(ed: Editor, confirmed: bool): (r: Editor)
    requires SelectionValid(ed)
    ensures r.functions == ed.functions && r.outputFunctions == ed.outputFunctions && r.nextId == ed.nextId
    ensures ed.selected.None? || !confirmed ==> r == ed
    ensures ed.selected.Some? && confirmed ==>
      var node := NodeById(ed.nodes, ed.selected.value).value;
      && multiset(r.nodes) == multiset(ed.nodes) - multiset{node}
      && (var k := Seqs.IndexOf(ed.nodes, node); r.nodes == ed.nodes[..k] + ed.nodes[k + 1..])
      && r.connections == Survivors(ed.connections, node.knobs)
      && r.selected == None
  {
    if ed.selected.None? || !confirmed then ed
    else
      var node := NodeById(ed.nodes, ed.selected.value).value;
      var doomed := ConnectionsOfKnobs(ed.connections, node.knobs);
      var kept := Without(ed.connections, doomed);
      WithoutTouching(ed.connections, doomed, node.knobs);
      Seqs.RemoveFirstMultiset(ed.nodes, node);
      ed.(connections := kept, nodes := Seqs.RemoveFirst(ed.nodes, node), selected := None)
  }

  // ---------------------------------------------------------------------
  // The invariant is kept by every edit
  // ---------------------------------------------------------------------

  /** Nodes with the same multiset of members keep the node-side parts of
      the invariant and every connection's attachment. */
  lemma SameNodesKeepGraph(ed: Editor, nodes: seq<Node>)
    requires Wf(ed) && SameNodes(nodes, ed.nodes)
    ensures DistinctNodes(nodes) && KnobsOwned(nodes, ed.nextId)
    ensures ConnectionsJoinGraph(nodes, ed.connections)
    ensures forall id :: NodeById(ed.nodes, id).Some? ==> NodeById(nodes, id).Some?
  {
    assert forall n :: n in nodes <==> n in ed.nodes by {
      forall n ensures n in nodes <==> n in ed.nodes {
        assert n in nodes <==> n in multiset(nodes);
        assert n in ed.nodes <==> n in multiset(ed.nodes);
      }
    }
    forall c | c in ed.connections
      ensures KnobInGraph(nodes, c.inputKnob) && KnobInGraph(nodes, c.outputKnob)
    {
      var a :| a in ed.nodes && c.inputKnob in a.knobs;
      var b :| b in ed.nodes && c.outputKnob in b.knobs;
      assert a in nodes && b in nodes;
    }
    forall id | NodeById(ed.nodes, id).Some? ensures NodeById(nodes, id).Some? {
      assert NodeById(ed.nodes, id).value in nodes;
    }
  }

  /** A left click keeps the invariant. */
  lemma LeftClickKeepsWf(ed: Editor, nodeHit: Option<nat>, knobHit: Option<Knob>)
    requires Wf(ed)
    requires nodeHit.Some? ==> nodeHit.value < |ed.nodes|
    ensures Wf(LeftClick(ed, nodeHit, knobHit))
  {
    var r := LeftClick(ed, nodeHit, knobHit);
    SameNodesKeepGraph(ed, r.nodes);
    if nodeHit.Some? {
      assert r.nodes[0] in r.nodes;
    }
  }

  /** Dropping a drag between two knobs of the graph keeps the invariant. */
  lemma DropKnobKeepsWf(ed: Editor, from: Knob, target: Option<Knob>)
    requires Wf(ed)
    requires KnobInGraph(ed.nodes, from)
    requires target.Some? ==> KnobInGraph(ed.nodes, target.value)
    ensures DropKnob(ed, from, target).Ok? ==> Wf(DropKnob(ed, from, target).value)
  {
    if target.Some? && target.value != from && NewConnection(from, target.value).Ok? {
      var c := NewConnection(from, target.value).value;
      assert c.inputKnob in {from, target.value} && c.outputKnob in {from, target.value};
    }
  }

  /** A right click keeps the invariant. */
  lemma RightClickKeepsWf(ed: Editor, knobHit: Option<Knob>, confirmed: bool)
    requires Wf(ed)
    ensures Wf(RightClick(ed, knobHit, confirmed))
  {
    if knobHit.Some? {
      SurvivorsSingleInput(ed.connections, [knobHit.value]);
    }
  }

  /** Deleting the selected node keeps the invariant: no surviving
      connection touches the removed node's knobs, so every survivor still
      joins knobs of remaining nodes. */
  lemma DeleteSelectedKeepsWf(ed: Editor, confirmed: bool)
    requires Wf(ed)
    ensures Wf(DeleteSelected(ed, confirmed))
  {
    var r := DeleteSelected(ed, confirmed);
    if ed.selected.Some? && confirmed {
      var node := NodeById(ed.nodes, ed.selected.value).value;
      RemoveNodeMembers(ed.nodes, r.nodes, node);
      SurvivorsSingleInput(ed.connections, node.knobs);
      RemoveNodeKeepsJoins(ed.nodes, r.nodes, ed.connections, node);
    }
  }

  /** Taking one occurrence of a node out of a list without duplicates
      leaves exactly the other nodes, still without duplicates. */
  lemma RemoveNodeMembers(nodes: seq<Node>, rest: seq<Node>, node: Node)
    requires DistinctNodes(nodes) && node in nodes
    requires multiset(rest) == multiset(nodes) - multiset{node}
    ensures forall n :: n in rest <==> n in nodes && n != node
    ensures DistinctNodes(rest)
  {
    forall n ensures n in rest <==> n in nodes && n != node {
      assert n in rest <==> n in multiset(rest);
      assert n in nodes <==> n in multiset(nodes);
    }
  }

  /** The connections left after a node's deletion touch none of its knobs,
      so they still join the remaining nodes. */
  lemma RemoveNodeKeepsJoins(nodes: seq<Node>, rest: seq<Node>, conns: seq<Connection>, node: Node)
    requires ConnectionsJoinGraph(nodes, conns)
    requires forall n :: n in rest <==> n in nodes && n != node
    ensures ConnectionsJoinGraph(rest, Survivors(conns, node.knobs))
  {
    forall c | c in Survivors(conns, node.knobs)
      ensures KnobInGraph(rest, c.inputKnob) && KnobInGraph(rest, c.outputKnob)
    {
      var a :| a in nodes && c.inputKnob in a.knobs;
      var b :| b in nodes && c.outputKnob in b.knobs;
      assert a != node && b != node;
      assert a in rest && b in rest;
    }
  }
}

=== FILE: propertyeditor.dfy ===
/** The property side panel (propertyeditor.py): the label shown for a
    property name, and the update of a node's property table when a value
    cell is edited. */
module PropertyEditor {
  import opened Common
  import opened Decorators
  import opened FlowEditor

  // ---------------------------------------------------------------------
  // `camelCaseToWords`
  // ---------------------------------------------------------------------

  /** Membership in `string.ascii_uppercase`. */
  predicate IsAsciiUpper(c: char)
  {
    'A' <= c <= 'Z'
  }

  /** `str.lower` on an ASCII capital. */
  function ToLower(c: char): (r: char)
    requires IsAsciiUpper(c)
    ensures 'a' <= r <= 'z'
    ensures r as int - 'a' as int == c as int - 'A' as int
  {
    (c as int + ('a' as int - 'A' as int)) as char
  }

  /** What one character of the input contributes to the label. */
  function Spelled(c: char): string
  {
    if IsAsciiUpper(c) then [' ', ToLower(c)] else [c]
  }

  /** The number of ASCII capitals in `s`. */
  function UpperCount(s: string): nat
  {
    if |s| == 0 then 0 else (if IsAsciiUpper(s[0]) then 1 else 0) + UpperCount(s[1..])
  }

  /** `camelCaseToWords(text)`: every ASCII capital becomes a space
      followed by its lower-case letter. The label is one character longer
      per capital and contains no ASCII capital. */
  function CamelCaseToWords(text: string): (r: string)
    ensures |r| == |text| + UpperCount(text)
    ensures forall i :: 0 <= i < |r| ==> !IsAsciiUpper(r[i])
  {
    if |text| == 0 then ""
    else Spelled(text[0]) + CamelCaseToWords(text[1..])
  }

  /** The character loop of `camelCaseToWords`, accumulating into `words`. */
  method CamelCaseToWordsLoop(text: string) returns (words: string)
    ensures words == CamelCaseToWords(text)
  {
    words := "";
    var i := 0;
    while i < |text|
      invariant 0 <= i <= |text|
      invariant words == CamelCaseToWords(text[..i])
    {
      CamelCaseConcat(text[..i], [text[i]]);
      assert text[..i + 1] == text[..i] + [text[i]];
      words := words + Spelled(text[i]);
      i := i + 1;
    }
    assert text[..i] == text;
  }

  /** The transform works character by character, so it distributes over
      concatenation. */
  lemma {:induction false} CamelCaseConcat(a: string, b: string)
    ensures CamelCaseToWords(a + b) == CamelCaseToWords(a) + CamelCaseToWords(b)
  {
    if |a| > 0 {
      assert (a + b)[0] == a[0];
      assert (a + b)[1..] == a[1..] + b;
      CamelCaseConcat(a[1..], b);
    } else {
      assert a + b == b;
    }
  }

  /** Character `i` of the input lands at position `i` plus the number of
      capitals before it: a capital as a space and its lower-case letter,
      any other character (non-ASCII capitals included) unchanged. */
  lemma CamelCaseAt(text: string, i: int)
    requires 0 <= i < |text|
    ensures var r := CamelCaseToWords(text);
      var j := i + UpperCount(text[..i]);
      && (IsAsciiUpper(text[i]) ==> j + 1 < |r| && r[j] == ' ' && r[j + 1] == ToLower(text[i]))
      && (!IsAsciiUpper(text[i]) ==> j < |r| && r[j] == text[i])
  {
    var pre, x, rest := text[..i], text[i], text[i + 1..];
    assert text == pre + [x] + rest;
    CamelCaseConcat(pre + [x], rest);
    CamelCaseConcat(pre, [x]);
    assert CamelCaseToWords([x]) == Spelled(x) by {
      assert [x][1..] == [];
    }
    var a, b, c := CamelCaseToWords(pre), Spelled(x), CamelCaseToWords(rest);
    var r := CamelCaseToWords(text);
    assert r == a + b + c;
    assert |a| == i + UpperCount(pre);
    assert r[|a|] == b[0];
    if IsAsciiUpper(x) {
      assert r[|a| + 1] == b[1];
    }
  }

  /** A text is its own label exactly when it has no ASCII capital. */
  lemma {:induction false} CamelCaseFixedPoint(text: string)
    ensures CamelCaseToWords(text) == text <==> forall i :: 0 <= i < |text| ==> !IsAsciiUpper(text[i])
  {
    if forall i :: 0 <= i < |text| ==> !IsAsciiUpper(text[i]) {
      NoUpperUnchanged(text);
    } else {
      var i :| 0 <= i < |text| && IsAsciiUpper(text[i]);
      CamelCaseAt(text, i);
    }
  }

  lemma {:induction false} NoUpperUnchanged(text: string)
    requires forall i :: 0 <= i < |text| ==> !IsAsciiUpper(text[i])
    ensures CamelCaseToWords(text) == text
  {
    if |text| > 0 {
      NoUpperUnchanged(text[1..]);
    }
  }

  /** Converting a label again changes nothing. */
  lemma CamelCaseIdempotent(text: string)
    ensures CamelCaseToWords(CamelCaseToWords(text)) == CamelCaseToWords(text)
  {
    NoUpperUnchanged(CamelCaseToWords(text));
  }

  // ---------------------------------------------------------------------
  // `PropertyWidget.propertyChanged`
  // ---------------------------------------------------------------------

  /** The cell text could not be converted by the property's type (the
      exception `type(item.text())` raises). */
  datatype EditError = ConversionFailed(name: string, text: string)

  /** An edited value cell: `name` and `propertyType` are the data stored in the
      cell (absent when the cell has none), `convert` is calling the type on
      the text. With a non-empty name and a type the entry becomes
      `(type, converted value)` and every other entry stays; otherwise the
      table is left as it is. */
  function PropertyChanged(props: seq<Property>, name: Option<string>, propertyType: Option<Annotation>, text: string,
                           convert: (Annotation, string) -> Option<Literal>): (r: Result<seq<Property>, EditError>)
    ensures name.None? || name.value == "" || propertyType.None? ==> r == Ok(props)
    ensures name.Some? && name.value != "" && propertyType.Some? ==>
      && (r.Err? <==> convert(propertyType.value, text).None?)
      && (r.Err? ==> r.error == ConversionFailed(name.value, text))
      && (r.Ok? ==> LookupProperty(r.value, name.value) == Some(Property(name.value, propertyType.value, Given(convert(propertyType.value, text).value))))
      && (r.Ok? ==> forall m :: m != name.value ==> LookupProperty(r.value, m) == LookupProperty(props, m))
      && (r.Ok? && name.value in Names(props) ==> Names(r.value) == Names(props))
  {
    if name.None? || name.value == "" || propertyType.None? then Ok(props)
    else
      match convert(propertyType.value, text)
      case None => Err(ConversionFailed(name.value, text))
      case Some(v) =>
        SetPropertyLookup(props, name.value, propertyType.value, Given(v));
        Ok(SetProperty(props, name.value, propertyType.value, Given(v)))
  }

  /** The edit seen from the editor. Selecting a node hands its own table
      to the panel, so a changed value cell rewrites the properties of the
      selected node in place: that node keeps its position, identity,
      function and knobs, every other node and every connection stays, and
      a failed conversion changes nothing. With no node selected the panel
      holds no table of the graph and the editor is left as it is. */
  function EditProperty(ed: Editor, name: Option<string>, propertyType: Option<Annotation>, text: string,
                        convert: (Annotation, string) -> Option<Literal>): (r: Result<Editor, EditError>)
    requires SelectionValid(ed)
    ensures ed.selected.None? ==> r == Ok(ed)
    ensures r.Ok? ==>
      && r.value.connections == ed.connections && r.value.selected == ed.selected && r.value.nextId == ed.nextId
      && r.value.functions == ed.functions && r.value.outputFunctions == ed.outputFunctions
      && |r.value.nodes| == |ed.nodes|
      && forall i :: 0 <= i < |ed.nodes| ==>
           r.value.nodes[i].id == ed.nodes[i].id && r.value.nodes[i].func == ed.nodes[i].func
           && r.value.nodes[i].knobs == ed.nodes[i].knobs
    ensures ed.selected.Some? ==>
      var node := NodeById(ed.nodes, ed.selected.value).value;
      var changed := PropertyChanged(node.properties, name, propertyType, text, convert);
      && (r.Err? <==> changed.Err?)
      && (r.Err? ==> r.error == changed.error)
      && (r.Ok? ==>
            var k := Seqs.IndexOf(ed.nodes, node);
            && r.value.nodes[k].properties == changed.value
            && forall i :: 0 <= i < |ed.nodes| && i != k ==> r.value.nodes[i] == ed.nodes[i])
  {
    if ed.selected.None? then Ok(ed)
    else
      var node := NodeById(ed.nodes, ed.selected.value).value;
      var props :- PropertyChanged(node.properties, name, propertyType, text, convert);
      var k := Seqs.IndexOf(ed.nodes, node);
      Ok(ed.(nodes := ed.nodes[k := node.(properties := props)]))
  }

  /** A property edit keeps the editor's invariant, and afterwards the
      selected node, looked up by its identity, carries the edited table. */
  lemma EditPropertyKeepsWf(ed: Editor, name: Option<string>, propertyType: Option<Annotation>, text: string,
                            convert: (Annotation, string) -> Option<Literal>)
    requires Wf(ed)
    ensures var r := EditProperty(ed, name, propertyType, text, convert);
      r.Ok? ==> Wf(r.value)
    ensures var r := EditProperty(ed, name, propertyType, text, convert);
      r.Ok? && ed.selected.Some? ==>
        NodeById(r.value.nodes, ed.selected.value).value.properties
          == PropertyChanged(NodeById(ed.nodes, ed.selected.value).value.properties, name, propertyType, text, convert).value
  {
    var r := EditProperty(ed, name, propertyType, text, convert);
    if r.Ok? && ed.selected.Some? {
      var node := NodeById(ed.nodes, ed.selected.value).value;
      var k := Seqs.IndexOf(ed.nodes, node);
      ReplaceNodeKeepsWf(ed, k, r.value.nodes[k]);
      assert r.value.nodes == ed.nodes[k := r.value.nodes[k]];
    }
  }

  /** Replacing one node by a node with the same identity and knobs keeps
      the invariant, and the new node is the one found by that identity. */
  lemma ReplaceNodeKeepsWf(ed: Editor, k: nat, n: Node)
    requires Wf(ed) && k < |ed.nodes|
    requires n.id == ed.nodes[k].id && n.knobs == ed.nodes[k].knobs
    ensures Wf(ed.(nodes := ed.nodes[k := n]))
    ensures NodeById(ed.nodes[k := n], n.id) == Some(n)
  {
    var was, ns := ed.nodes[k], ed.nodes[k := n];
    ReplaceNodeMembers(ed.nodes, k, n);
    forall c | c in ed.connections
      ensures KnobInGraph(ns, c.inputKnob) && KnobInGraph(ns, c.outputKnob)
    {
      var a :| a in ed.nodes && c.inputKnob in a.knobs;
      var b :| b in ed.nodes && c.outputKnob in b.knobs;
      assert (if a == was then n else a) in ns;
      assert (if b == was then n else b) in ns;
    }
    if ed.selected.Some? {
      var s := NodeById(ed.nodes, ed.selected.value).value;
      assert (if s == was then n else s) in ns;
    }
  }

  /** The members of a node list after one node is replaced by a node with
      the same identity: the new node and every other old one. Distinctness
      survives. */
  lemma ReplaceNodeMembers(nodes: seq<Node>, k: nat, n: Node)
    requires DistinctNodes(nodes) && k < |nodes| && n.id == nodes[k].id
    ensures forall m :: m in nodes[k := n] <==> m == n || (m in nodes && m != nodes[k])
    ensures DistinctNodes(nodes[k := n])
  {
    var was, ns := nodes[k], nodes[k := n];
    assert multiset(ns) == multiset(nodes) - multiset{was} + multiset{n};
    assert multiset(nodes)[was] == 1;
    forall m ensures m in ns <==> m == n || (m in nodes && m != was) {
      assert m in ns <==> m in multiset(ns);
      assert m in nodes <==> m in multiset(nodes);
    }
    forall m | m in ns ensures multiset(ns)[m] == 1 {
      assert m in nodes <==> m in multiset(nodes);
    }
  }
}

=== FILE: seqs.dfy ===
/** Order-preserving sequence helpers that stand in for Python list
    comprehensions, generator filters and `list.remove`. */
module Seqs {

  /** The elements of `s` that satisfy `p`, in their original order. */
  function Filter<T(!new)>(s: seq<T>, p: T -> bool): (r: seq<T>)
    ensures |r| <= |s|
    ensures forall x :: x in r <==> x in s && p(x)
    ensures forall i :: 0 <= i < |r| ==> p(r[i])
  {
    if |s| == 0 then [] else (if p(s[0]) then [s[0]] else []) + Filter(s[1..], p)
  }

  /** A one-element list is kept exactly when its element passes. */
  lemma FilterSingleton<T(!new)>(x: T, p: T -> bool)
    ensures Filter([x], p) == if p(x) then [x] else []
  {
    assert [x][1..] == [];
  }

  /** Filtering distributes over concatenation, so it never reorders. */
  lemma {:induction false} FilterConcat<T(!new)>(a: seq<T>, b: seq<T>, p: T -> bool)
    ensures Filter(a + b, p) == Filter(a, p) + Filter(b, p)
  {
    if |a| == 0 {
      assert a + b == b;
    } else {
      assert (a + b)[1..] == a[1..] + b;
      FilterConcat(a[1..], b, p);
    }
  }

  /** A filter keeps every element that passes and drops every one that
      fails, occurrence by occurrence. */
  lemma {:induction false} FilterMultiset<T(!new)>(s: seq<T>, p: T -> bool, x: T)
    ensures multiset(Filter(s, p))[x] == if p(x) then multiset(s)[x] else 0
  {
    if |s| > 0 {
      FilterMultiset(s[1..], p, x);
      assert s == [s[0]] + s[1..];
      assert multiset(s) == multiset([s[0]]) + multiset(s[1..]);
    }
  }

  /** The position of the first occurrence of `x`, like `list.index`. */
  function IndexOf<T(==)>(s: seq<T>, x: T): (i: nat)
    requires x in s
    ensures i < |s| && s[i] == x && x !in s[..i]
  {
    if s[0] == x then 0 else 1 + IndexOf(s[1..], x)
  }

  /** Removes the first occurrence of `x`, like Python's `list.remove`:
      that one position is cut out and the rest keeps its order. The
      sequence is unchanged when `x` does not occur. */
  function RemoveFirst<T(==)>(s: seq<T>, x: T): (r: seq<T>)
    ensures x in s ==> |r| == |s| - 1
    ensures x in s ==> r == s[..IndexOf(s, x)] + s[IndexOf(s, x) + 1..]
    ensures x !in s ==> r == s
  {
    if |s| == 0 then []
    else if s[0] == x then s[1..]
    else
      var rest := RemoveFirst(s[1..], x);
      if x in s then
        CutCons(s, x);
        [s[0]] + rest
      else
        [s[0]] + rest
  }

  /** Cutting the first `x` out of a sequence whose head is not `x` cuts
      it out of the tail. */
  lemma {:induction false} CutCons<T>(s: seq<T>, x: T)
    requires x in s && s[0] != x
    ensures var i, j := IndexOf(s, x), IndexOf(s[1..], x);
      i == j + 1 && s[..i] + s[i + 1..] == [s[0]] + (s[1..][..j] + s[1..][j + 1..])
  {
    var t := s[1..];
    assert x in t;
    var j := IndexOf(t, x);
    assert IndexOf(s, x) == j + 1;
    assert s[..j + 1] == [s[0]] + t[..j];
    assert s[j + 2..] == t[j + 1..];
  }


  /** `list.remove` takes away exactly one occurrence of `x`, if there is
      one, and keeps every other element. */
  lemma {:induction false} RemoveFirstMultiset<T>(s: seq<T>, x: T)
    ensures multiset(RemoveFirst(s, x)) == multiset(s) - multiset{x}
  {
    if |s| > 0 {
      assert s == [s[0]] + s[1..];
      if s[0] != x {
        RemoveFirstMultiset(s[1..], x);
      }
    }
  }

  /** Removes each element of `xs` in turn, one `list.remove` per element. */
  function RemoveEach<T(==)>(s: seq<T>, xs: seq<T>): seq<T>
    decreases |xs|
  {
    if |xs| == 0 then s else RemoveEach(RemoveFirst(s, xs[0]), xs[1..])
  }

  /** Removing elements other than the head leaves the head in front. */
  lemma {:induction false} RemoveEachKeepsHead<T>(h: T, t: seq<T>, xs: seq<T>)
    requires h !in xs
    ensures RemoveEach([h] + t, xs) == [h] + RemoveEach(t, xs)
    decreases |xs|
  {
    if |xs| > 0 {
      assert xs[0] != h;
      assert RemoveFirst([h] + t, xs[0]) == [h] + RemoveFirst(t, xs[0]);
      RemoveEachKeepsHead(h, RemoveFirst(t, xs[0]), xs[1..]);
    }
  }

  /** Filters whose predicates agree on the elements of `s` select the same
      subsequence. */
  lemma {:induction false} FilterCongruent<T(!new)>(s: seq<T>, p: T -> bool, q: T -> bool)
    requires forall x :: x in s ==> p(x) == q(x)
    ensures Filter(s, p) == Filter(s, q)
  {
    if |s| > 0 {
      assert forall x :: x in s[1..] ==> x in s;
      FilterCongruent(s[1..], p, q);
    }
  }

  /** A filter that every element passes changes nothing. */
  lemma {:induction false} FilterAll<T(!new)>(s: seq<T>, p: T -> bool)
    requires forall i :: 0 <= i < |s| ==> p(s[i])
    ensures Filter(s, p) == s
  {
    if |s| > 0 {
      FilterAll(s[1..], p);
      assert s == [s[0]] + s[1..];
    }
  }

  /** A filter that no element passes selects nothing. */
  lemma FilterNone<T(!new)>(s: seq<T>, p: T -> bool)
    requires forall i :: 0 <= i < |s| ==> !p(s[i])
    ensures Filter(s, p) == []
  {
  }

  /** Exchanging two positions permutes the sequence. */
  lemma SwapPermutes<T>(s: seq<T>, i: int, j: int)
    requires 0 <= i < |s| && 0 <= j < |s|
    ensures multiset(s[i := s[j]][j := s[i]]) == multiset(s)
  {
    var t := s[i := s[j]];
    assert multiset(t) == multiset(s) - multiset{s[i]} + multiset{s[j]};
    assert multiset(t[j := s[i]]) == multiset(t) - multiset{t[j]} + multiset{s[i]};
  }
}

=== FILE: synth.dfy ===
/** The data side of synth.py: the render context `SynthParameters`, the
    `Output` sink function, and the values the evaluator binds to
    parameters. Sample buffers and node functions are uninterpreted: a
    node's result is the symbolic term `Call(func, bindings)`, so every
    concrete choice of node functions factors through this model. */
module Synth {
  import opened Decorators
  import Common

  /** `SynthParameters`: the shared render context. The source multiplies
      a float length by an integer rate, so all three fields are reals;
      they are exact, without the rounding, infinities and NaN of Python
      floats. */
  datatype SynthParameters = SynthParameters(sampleRate: real, length: real, samples: real)

  /** `SynthParameters.__init__(rate, length)`. */
  function NewSynthParameters(rate: real, length: real): (r: SynthParameters)
    ensures r.sampleRate == rate && r.length == length
    ensures r.samples == r.length * r.sampleRate
  {
    SynthParameters(rate, length, length * rate)
  }

  /** The identity reserved for the `Output` function object. */
  const OutputFuncId: nat := 0

  /** `Output(synthParameters: SynthParameters = None, input: SynthBuffer = 0.0,
      sampleRate: int = 44100, length: float = 2.0, playbackSpeedFactor: float = 1.0)`. */
  const OutputFunc: Func := Func(OutputFuncId, "Output", [
    Parameter("synthParameters", PositionalOrKeyword, SynthParametersType, Given(NoneLit)),
    Parameter("input", PositionalOrKeyword, SynthBufferType, Given(RealLit(0.0))),
    Parameter("sampleRate", PositionalOrKeyword, OtherType("int"), Given(IntLit(44100))),
    Parameter("length", PositionalOrKeyword, OtherType("float"), Given(RealLit(2.0))),
    Parameter("playbackSpeedFactor", PositionalOrKeyword, OtherType("float"), Given(RealLit(1.0)))
  ])

  /** A sample buffer: either `SynthBuffer(default)`, a buffer filled with
      a parameter's default, or the uninterpreted result of calling a node
      function on its bound arguments. */
  datatype Signal =
    | Filled(fill: Default)
    | Call(func: Func, args: seq<Binding>)

  /** What the evaluator binds to one parameter: a property's literal
      value, a buffer, or the shared render context. */
  datatype Arg =
    | LiteralArg(value: Default)
    | SignalArg(signal: Signal)
    | ContextArg(context: SynthParameters)

  /** One keyword argument of `node.func(**parameters)`. */
  datatype Binding = Binding(name: string, arg: Arg)

  /** `Output` is accepted by the registry's signature check. */
  lemma OutputFuncIsValid()
    ensures Decorators.RegisterFunction([], OutputFunc).outcome == Common.Ok(OutputFunc)
  {
    assert forall i :: 0 <= i < |OutputFunc.parameters| ==>
      HasAnnotation(OutputFunc.parameters[i]) && HasDefault(OutputFunc.parameters[i]);
  }
}

=== FILE: synthesizer.dfy ===
/** The evaluator of synth.py: `Synthesizer._workNode` walks the flow graph
    depth first from the single output node, binding each parameter of a
    node's function to a property value, an upstream result, a buffer
    filled with the parameter's default, or the shared render context, and
    `synthesizeFromFlowGraph` picks the output node and builds the context.

    The code at synth.py:29-60 has these defects, and the model reads
    past each of them: `_workNode` has no `self` parameter and is called
    unqualified (lines 29, 38, 60); `inputs` and `parameters` are lists
    indexed by name (lines 30, 40); `parameter.annotation()` calls the
    class instead of comparing it (lines 46, 48); the output-node filter
    names an undefined `x` (line 54); the output node is read through
    `node.parameters`, which nodes do not have, instead of
    `node.properties` (lines 58-59), and the entry read there is the
    whole `(annotation, value)` pair, which `length * rate` cannot
    multiply; and the loop check compares the upstream output KNOB with a
    list of nodes (line 34), so it never fires. The model takes a
    dictionary for each list, compares annotations, filters on each
    `node`, reads the value half of each `node.properties` entry (as line
    44 does with `[1]`), and asks whether the upstream NODE is on the
    path, which is what the error message says. */
module Synthesizer {
  import opened Common
  import opened Decorators
  import opened Synth
  import opened FlowEditor
  import Seqs

  /** The `SynthException`s, plus the `KeyError` and `TypeError` the
      context construction can raise. */
  datatype SynthError =
    | ExactlyOneOutputRequired
    | NoLoopsAllowed
    | MissingProperty(name: string)
    | NotANumber(name: string)

  /** Every connection's output knob names a node of the graph, so the
      upstream node of a connection can be found. */
  predicate UpstreamResolvable(g: Editor)
  {
    forall c :: c in g.connections ==> NodeById(g.nodes, c.outputKnob.node).Some?
  }

  /** The editor's invariant provides what evaluation needs. */
  lemma WfUpstreamResolvable(g: Editor)
    requires Wf(g)
    ensures UpstreamResolvable(g)
  {
    forall c | c in g.connections ensures NodeById(g.nodes, c.outputKnob.node).Some? {
      var a :| a in g.nodes && c.outputKnob in a.knobs;
      assert a.id == c.outputKnob.node;
    }
  }

  function PathSet(path: seq<NodeId>): set<NodeId>
  {
    set x | x in path
  }

  /** How many nodes of the graph are neither on the path nor the node
      being evaluated. */
  function Measure(g: Editor, id: NodeId, path: seq<NodeId>): nat
  {
    |NodeIds(g.nodes) - PathSet(path) - {id}|
  }

  /** Breaks the tie of a self loop: a node evaluated while already on
      its own path has no more room to recurse without the check firing. */
  function Flag(id: NodeId, path: seq<NodeId>): nat
  {
    if id in path then 0 else 1
  }

  /** The recursion makes progress: the upstream node is off the path, so
      pushing the current node either shrinks the set of unvisited graph
      nodes or (for a self loop) clears the flag. */
  lemma MeasureDecreases(g: Editor, id: NodeId, path: seq<NodeId>, up: NodeId)
    requires up in NodeIds(g.nodes) && up !in path
    ensures Measure(g, up, path + [id]) < Measure(g, id, path)
      || (Measure(g, up, path + [id]) == Measure(g, id, path) && Flag(up, path + [id]) < Flag(id, path))
  {
    var before := NodeIds(g.nodes) - PathSet(path) - {id};
    var after := NodeIds(g.nodes) - PathSet(path + [id]) - {up};
    if up == id {
      assert after == before;
    } else {
      assert after == before - {up};
      assert up in before;
    }
  }

  /** `_workNode(node, flowGraph, previous)`: collects the upstream results
      of the node's input knobs, then calls the node's function on its
      bound parameters. */
  function EvalNode(g: Editor, ctx: SynthParameters, n: Node, path: seq<NodeId>): (r: Result<Signal, SynthError>)
    requires UpstreamResolvable(g)
    ensures r.Err? ==> r.error == NoLoopsAllowed
    ensures r.Ok? ==> r.value.Call? && r.value.func == n.func
    decreases Measure(g, n.id, path), Flag(n.id, path), 2, 0
  {
    var inputs :- CollectInputs(g, ctx, n, path, n.knobs, map[]);
    Ok(Call(n.func, BindParameters(n, n.func.parameters, inputs, ctx)))
  }

  /** The loop over the node's knobs: each input knob's connections are
      followed upstream and the results stored under the knob's name. */
  function CollectInputs(g: Editor, ctx: SynthParameters, n: Node, path: seq<NodeId>,
                         knobs: seq<Knob>, acc: map<string, Signal>): (r: Result<map<string, Signal>, SynthError>)
    requires UpstreamResolvable(g)
    ensures r.Err? ==> r.error == NoLoopsAllowed
    decreases Measure(g, n.id, path), Flag(n.id, path), 1, |knobs|
  {
    if |knobs| == 0 then Ok(acc)
    else if knobs[0].kind == InputKnob then
      var acc' :- BindUpstream(g, ctx, n, path, knobs[0], FindConnections(g.connections, knobs[0]), acc);
      CollectInputs(g, ctx, n, path, knobs[1..], acc')
    else
      CollectInputs(g, ctx, n, path, knobs[1..], acc)
  }

  /** The loop over one input knob's connections: an upstream node already
      on the path raises "No loops allowed in graph."; otherwise it is
      evaluated with the current node pushed on the path. */
  function BindUpstream(g: Editor, ctx: SynthParameters, n: Node, path: seq<NodeId>,
                        k: Knob, conns: seq<Connection>, acc: map<string, Signal>): (r: Result<map<string, Signal>, SynthError>)
    requires UpstreamResolvable(g)
    requires forall c :: c in conns ==> c in g.connections
    ensures r.Err? ==> r.error == NoLoopsAllowed
    decreases Measure(g, n.id, path), Flag(n.id, path), 0, |conns|
  {
    if |conns| == 0 then Ok(acc)
    else
      var up := conns[0].outputKnob.node;
      if up in path then Err(NoLoopsAllowed)
      else
        var u := NodeById(g.nodes, up).value;
        MeasureDecreases(g, n.id, path, up);
        var s :- EvalNode(g, ctx, u, path + [n.id]);
        BindUpstream(g, ctx, n, path, k, conns[1..], acc[k.name := s])
  }

  /** The argument bound to `name`, if any. */
  function BindingOf(bs: seq<Binding>, name: string): (r: Option<Arg>)
    ensures r.None? <==> forall i :: 0 <= i < |bs| ==> bs[i].name != name
  {
    if |bs| == 0 then None
    else if bs[0].name == name then Some(bs[0].arg)
    else BindingOf(bs[1..], name)
  }

  /** Looking a name up in two binding lists laid end to end. */
  lemma {:induction false} BindingOfConcat(a: seq<Binding>, b: seq<Binding>, name: string)
    ensures BindingOf(a + b, name) == if BindingOf(a, name).Some? then BindingOf(a, name) else BindingOf(b, name)
  {
    if |a| == 0 {
      assert a + b == b;
    } else {
      assert (a + b)[1..] == a[1..] + b;
      BindingOfConcat(a[1..], b, name);
    }
  }

  /** What one iteration of the parameter loop binds to `p`. */
  function ArgFor(n: Node, p: Parameter, inputs: map<string, Signal>, ctx: SynthParameters): Option<Arg>
  {
    match LookupProperty(n.properties, p.name)
    case Some(prop) => Some(LiteralArg(prop.value))
    case None =>
      if p.annotation == SynthBufferType then
        Some(SignalArg(if p.name in inputs then inputs[p.name] else Filled(p.default)))
      else if p.annotation == SynthParametersType then Some(ContextArg(ctx))
      else None
  }

  /** The parameter loop of `_workNode`: a parameter with a property is
      bound to the property's current value; otherwise a `SynthBuffer`
      parameter is bound to its upstream result, or to a buffer filled with
      its default when nothing is connected, and a `SynthParameters`
      parameter to the render context; any other parameter is not passed. */
  function BindParameters(n: Node, ps: seq<Parameter>, inputs: map<string, Signal>, ctx: SynthParameters): (r: seq<Binding>)
    ensures forall i :: 0 <= i < |r| ==> exists p :: p in ps && p.name == r[i].name
    ensures DistinctParameterNames(ps) ==> forall p :: p in ps ==>
      BindingOf(r, p.name) == ArgFor(n, p, inputs, ctx)
  {
    if |ps| == 0 then []
    else
      var p := ps[0];
      var a := ArgFor(n, p, inputs, ctx);
      var here := if a.Some? then [Binding(p.name, a.value)] else [];
      var rest := BindParameters(n, ps[1..], inputs, ctx);
      BindParametersStep(n, ps, inputs, ctx, here, rest);
      here + rest
  }

  /** The binding rules of `_workNode`, parameter by parameter: a
      property's current value wins; otherwise a `SynthBuffer` parameter
      gets its upstream result, or a buffer filled with its default when
      nothing is connected; a `SynthParameters` parameter gets the render
      context; anything else is not passed. */
  lemma BindingRules(n: Node, ps: seq<Parameter>, inputs: map<string, Signal>, ctx: SynthParameters, p: Parameter)
    requires DistinctParameterNames(ps) && p in ps
    ensures var r := BindParameters(n, ps, inputs, ctx);
      var prop := LookupProperty(n.properties, p.name);
      && (prop.Some? ==> BindingOf(r, p.name) == Some(LiteralArg(prop.value.value)))
      && (prop.None? && IsBufferParameter(p) && p.name in inputs ==> BindingOf(r, p.name) == Some(SignalArg(inputs[p.name])))
      && (prop.None? && IsBufferParameter(p) && p.name !in inputs ==> BindingOf(r, p.name) == Some(SignalArg(Filled(p.default))))
      && (prop.None? && IsContextParameter(p) ==> BindingOf(r, p.name) == Some(ContextArg(ctx)))
      && (prop.None? && IsPropertyParameter(p) ==> BindingOf(r, p.name) == None)
  {
  }

  lemma BindParametersStep(n: Node, ps: seq<Parameter>, inputs: map<string, Signal>, ctx: SynthParameters,
                           here: seq<Binding>, rest: seq<Binding>)
    requires |ps| > 0
    requires here == if ArgFor(n, ps[0], inputs, ctx).Some? then [Binding(ps[0].name, ArgFor(n, ps[0], inputs, ctx).value)] else []
    requires forall i :: 0 <= i < |rest| ==> exists p :: p in ps[1..] && p.name == rest[i].name
    requires DistinctParameterNames(ps[1..]) ==> forall p :: p in ps[1..] ==> BindingOf(rest, p.name) == ArgFor(n, p, inputs, ctx)
    ensures forall i :: 0 <= i < |here + rest| ==> exists p :: p in ps && p.name == (here + rest)[i].name
    ensures DistinctParameterNames(ps) ==> forall p :: p in ps ==> BindingOf(here + rest, p.name) == ArgFor(n, p, inputs, ctx)
  {
    var p := ps[0];
    var r := here + rest;
    forall i | 0 <= i < |r| ensures exists q :: q in ps && q.name == r[i].name {
      if i < |here| {
        assert ps[0] in ps;
      } else {
        assert r[i] == rest[i - |here|];
        var q :| q in ps[1..] && q.name == rest[i - |here|].name;
        assert q in ps;
      }
    }
    if DistinctParameterNames(ps) {
      assert DistinctParameterNames(ps[1..]) by {
        forall i, j | 0 <= i < j < |ps[1..]| ensures ps[1..][i].name != ps[1..][j].name {
          assert ps[1..][i] == ps[i + 1] && ps[1..][j] == ps[j + 1];
        }
      }
      forall q | q in ps ensures BindingOf(r, q.name) == ArgFor(n, q, inputs, ctx) {
        BindingOfConcat(here, rest, q.name);
        if q == p {
          if BindingOf(here, p.name).None? {
            assert here == [];
            forall i | 0 <= i < |rest| ensures rest[i].name != p.name {
              var q' :| q' in ps[1..] && q'.name == rest[i].name;
              var j :| 0 <= j < |ps[1..]| && ps[1..][j] == q';
              assert ps[j + 1] == q';
            }
          }
        } else {
          var j :| 0 <= j < |ps| && ps[j] == q;
          assert j != 0;
          assert ps[1..][j - 1] == q;
          assert q.name != p.name;
        }
      }
    }
  }

  // ---------------------------------------------------------------------
  // synthesizeFromFlowGraph
  // ---------------------------------------------------------------------

  /** The attributes of a `Synthesizer`. */
  datatype SynthState = SynthState(soundBuffer: Option<Signal>, synthParameters: Option<SynthParameters>, playbackSpeedFactor: Default)

  /** `Synthesizer.__init__`: no sound buffer and no render context yet,
      and a playback speed factor of 1.0. */
  function InitialState(): (r: SynthState)
    ensures r.soundBuffer.None? && r.synthParameters.None?
    ensures r.playbackSpeedFactor == Given(RealLit(1.0))
  {
    SynthState(None, None, Given(RealLit(1.0)))
  }

  /** The state after a synthesis attempt and what it produced. */
  datatype Run = Run(state: SynthState, outcome: Result<Signal, SynthError>)

  predicate IsOutputNode(g: Editor, n: Node)
  {
    n.func in g.outputFunctions
  }

  /** The nodes whose function is an output function, in node order. */
  function OutputNodes(g: Editor): (r: seq<Node>)
    ensures forall n :: n in r <==> n in g.nodes && IsOutputNode(g, n)
  {
    Seqs.Filter(g.nodes, n => IsOutputNode(g, n))
  }

  /** `node.properties[name][1]`, raising `KeyError` for a missing key. */
  function PropertyValue(n: Node, name: string): (r: Result<Default, SynthError>)
    ensures r.Ok? <==> LookupProperty(n.properties, name).Some?
    ensures r.Ok? ==> r.value == LookupProperty(n.properties, name).value.value
    ensures r.Err? ==> r.error == MissingProperty(name)
  {
    match LookupProperty(n.properties, name)
    case Some(prop) => Ok(prop.value)
    case None => Err(MissingProperty(name))
  }

  /** A property value as a number; anything but an int or float makes the
      multiplication raise `TypeError`. */
  function AsNumber(d: Default, name: string): (r: Result<real, SynthError>)
    ensures r.Err? ==> r.error == NotANumber(name)
    ensures r.Ok? <==> d.Given? && (d.value.IntLit? || d.value.RealLit?)
    ensures d.Given? && d.value.IntLit? ==> r == Ok(d.value.i as real)
    ensures d.Given? && d.value.RealLit? ==> r == Ok(d.value.r)
  {
    match d
    case Given(IntLit(i)) => Ok(i as real)
    case Given(RealLit(x)) => Ok(x)
    case _ => Err(NotANumber(name))
  }

  /** `SynthParameters(props["sampleRate"], props["length"])`: the two
      lookups in argument order, each raising for a missing key, then the
      product `length * rate`, which needs two numbers. The context is
      built exactly when both properties are present and numeric, and then
      holds their values. */
  function ContextOf(out: Node): (r: Result<SynthParameters, SynthError>)
    ensures var rate, length := PropertyValue(out, "sampleRate"), PropertyValue(out, "length");
      && (r.Ok? <==>
           rate.Ok? && length.Ok? && AsNumber(rate.value, "sampleRate").Ok? && AsNumber(length.value, "length").Ok?)
      && (r.Ok? ==>
           r.value == NewSynthParameters(AsNumber(rate.value, "sampleRate").value, AsNumber(length.value, "length").value))
    ensures PropertyValue(out, "sampleRate").Err? ==> r == Err(MissingProperty("sampleRate"))
    ensures PropertyValue(out, "sampleRate").Ok? && PropertyValue(out, "length").Err? ==>
      r == Err(MissingProperty("length"))
    ensures PropertyValue(out, "sampleRate").Ok? && PropertyValue(out, "length").Ok? ==>
      && (AsNumber(PropertyValue(out, "sampleRate").value, "sampleRate").Err? ==> r == Err(NotANumber("sampleRate")))
      && (AsNumber(PropertyValue(out, "sampleRate").value, "sampleRate").Ok? && AsNumber(PropertyValue(out, "length").value, "length").Err? ==>
            r == Err(NotANumber("length")))
    ensures r.Err? ==> r.error.MissingProperty? || r.error.NotANumber?
  {
    var rate :- PropertyValue(out, "sampleRate");
    var length :- PropertyValue(out, "length");
    var rateNumber :- AsNumber(rate, "sampleRate");
    var lengthNumber :- AsNumber(length, "length");
    Ok(NewSynthParameters(rateNumber, lengthNumber))
  }

  /** A new `Output` node's table gives a render context of 44100 samples
      per second for 2 seconds (88200 samples) and a playback speed factor
      of 1.0, so its properties never stop a synthesis run. */
  lemma OutputTableContext(n: Node)
    requires n.properties == OutputTable()
    ensures ContextOf(n) == Ok(NewSynthParameters(44100.0, 2.0))
    ensures ContextOf(n).value.samples == 88200.0
    ensures PropertyValue(n, "playbackSpeedFactor") == Ok(Given(RealLit(1.0)))
  {
    OutputTableEntries();
  }

  /** The attribute writes of `synthesizeFromFlowGraph` once the output
      node `out` is found, one step at a time: a context that cannot be
      built fails with its error and writes nothing; a missing
      `playbackSpeedFactor` fails after the context is written; otherwise
      the context and the speed factor are written and the outcome is the
      evaluation of `out` from an empty path, whose result becomes the
      sound buffer only when it succeeds. */
  predicate SynthesisSteps(s: SynthState, g: Editor, out: Node, r: Run)
    requires UpstreamResolvable(g)
  {
    && (ContextOf(out).Err? ==> r == Run(s, Err(ContextOf(out).error)))
    && (ContextOf(out).Ok? && PropertyValue(out, "playbackSpeedFactor").Err? ==>
          r == Run(s.(synthParameters := Some(ContextOf(out).value)), Err(MissingProperty("playbackSpeedFactor"))))
    && (ContextOf(out).Ok? && PropertyValue(out, "playbackSpeedFactor").Ok? ==>
          var written := s.(synthParameters := Some(ContextOf(out).value),
                            playbackSpeedFactor := PropertyValue(out, "playbackSpeedFactor").value);
          && r.outcome == EvalNode(g, ContextOf(out).value, out, [])
          && r.state == if r.outcome.Ok? then written.(soundBuffer := Some(r.outcome.value)) else written)
  }

  /** `synthesizeFromFlowGraph`: fails with "Exactly one Output node
      required." unless exactly one node has an output function; then
      takes the steps of `SynthesisSteps` on that node. A failed run never
      replaces the sound buffer. */
  function Synthesize(s: SynthState, g: Editor): (r: Run)
    requires UpstreamResolvable(g)
    ensures r.outcome == Err(ExactlyOneOutputRequired) <==> |OutputNodes(g)| != 1
    ensures |OutputNodes(g)| != 1 ==> r.state == s
    ensures |OutputNodes(g)| == 1 ==> SynthesisSteps(s, g, OutputNodes(g)[0], r)
    ensures r.outcome.Ok? ==>
      var out := OutputNodes(g)[0];
      && ContextOf(out).Ok?
      && r.state.synthParameters == Some(ContextOf(out).value)
      && PropertyValue(out, "playbackSpeedFactor").Ok?
      && r.state.playbackSpeedFactor == PropertyValue(out, "playbackSpeedFactor").value
      && r.state.soundBuffer == Some(r.outcome.value)
      && EvalNode(g, ContextOf(out).value, out, []) == Ok(r.outcome.value)
    ensures r.outcome.Err? ==> r.state.soundBuffer == s.soundBuffer
  {
    var outs := OutputNodes(g);
    if |outs| != 1 then Run(s, Err(ExactlyOneOutputRequired))
    else SynthesizeFrom(s, g, outs[0])
  }

  /** The steps after the output node `out` has been found. */
  function SynthesizeFrom(s: SynthState, g: Editor, out: Node): (r: Run)
    requires UpstreamResolvable(g)
    ensures SynthesisSteps(s, g, out, r)
    ensures r.outcome.Err? ==> !r.outcome.error.ExactlyOneOutputRequired?
    ensures r.outcome.Ok? ==>
      && ContextOf(out).Ok?
      && r.state.synthParameters == Some(ContextOf(out).value)
      && PropertyValue(out, "playbackSpeedFactor").Ok?
      && r.state.playbackSpeedFactor == PropertyValue(out, "playbackSpeedFactor").value
      && r.state.soundBuffer == Some(r.outcome.value)
      && EvalNode(g, ContextOf(out).value, out, []) == Ok(r.outcome.value)
    ensures r.outcome.Err? ==> r.state.soundBuffer == s.soundBuffer
  {
    match ContextOf(out)
    case Err(e) => Run(s, Err(e))
    case Ok(ctx) =>
      var s1 := s.(synthParameters := Some(ctx));
      match PropertyValue(out, "playbackSpeedFactor")
      case Err(e) => Run(s1, Err(e))
      case Ok(speed) =>
        var s2 := s1.(playbackSpeedFactor := speed);
        match EvalNode(g, ctx, out, [])
        case Err(e) => Run(s2, Err(e))
        case Ok(buffer) => Run(s2.(soundBuffer := Some(buffer)), Ok(buffer))
  }

  /** A synthesis run succeeds when there is one output node whose
      `sampleRate` and `length` are numbers and which has a
      `playbackSpeedFactor`, and the graph has no cycle. */
  lemma SynthesizeSucceeds(s: SynthState, g: Editor, rank: NodeId -> nat)
    requires UpstreamResolvable(g) && Ranked(g, rank)
    requires |OutputNodes(g)| == 1
    requires var out := OutputNodes(g)[0];
      && PropertyValue(out, "sampleRate").Ok? && AsNumber(PropertyValue(out, "sampleRate").value, "sampleRate").Ok?
      && PropertyValue(out, "length").Ok? && AsNumber(PropertyValue(out, "length").value, "length").Ok?
      && PropertyValue(out, "playbackSpeedFactor").Ok?
    ensures Synthesize(s, g).outcome.Ok?
    ensures Synthesize(s, g).state.soundBuffer == Some(Synthesize(s, g).outcome.value)
  {
    var out := OutputNodes(g)[0];
    assert out in OutputNodes(g);
    AcyclicSucceeds(g, ContextOf(out).value, rank, out, []);
  }

  /** A synthesis run whose output node is on a cycle, or downstream of
      one, fails with "No loops allowed in graph." and keeps the old sound
      buffer. */
  lemma SynthesizeDetectsLoop(s: SynthState, g: Editor, cyc: set<NodeId>)
    requires UpstreamResolvable(g) && DistinctNodes(g.nodes)
    requires |OutputNodes(g)| == 1
    requires ContextOf(OutputNodes(g)[0]).Ok? && PropertyValue(OutputNodes(g)[0], "playbackSpeedFactor").Ok?
    requires FeedsItself(g, cyc) && OutputNodes(g)[0].id in cyc
    ensures Synthesize(s, g).outcome == Err(NoLoopsAllowed)
    ensures Synthesize(s, g).state.soundBuffer == s.soundBuffer
  {
    var out := OutputNodes(g)[0];
    assert out in OutputNodes(g);
    assert NodeById(g.nodes, out.id) == Some(out);
    CycleFails(g, ContextOf(out).value, cyc, out.id, []);
  }

  // ---------------------------------------------------------------------
  // Loop detection
  // ---------------------------------------------------------------------

  /** Following connection `c` from node `n` cannot succeed: its upstream
      node is already on the path, or evaluating it fails. */
  predicate Blocked(g: Editor, ctx: SynthParameters, n: Node, path: seq<NodeId>, c: Connection)
    requires UpstreamResolvable(g) && c in g.connections
  {
    || c.outputKnob.node in path
    || EvalNode(g, ctx, NodeById(g.nodes, c.outputKnob.node).value, path + [n.id]).Err?
  }

  lemma {:induction false} BindUpstreamFails(g: Editor, ctx: SynthParameters, n: Node, path: seq<NodeId>,
                                             k: Knob, conns: seq<Connection>, acc: map<string, Signal>, c: Connection)
    requires UpstreamResolvable(g)
    requires forall x :: x in conns ==> x in g.connections
    requires c in conns && Blocked(g, ctx, n, path, c)
    ensures BindUpstream(g, ctx, n, path, k, conns, acc).Err?
    decreases |conns|
  {
    var up := conns[0].outputKnob.node;
    if up !in path {
      var u := NodeById(g.nodes, up).value;
      var s := EvalNode(g, ctx, u, path + [n.id]);
      if s.Ok? {
        assert conns[0] != c;
        BindUpstreamFails(g, ctx, n, path, k, conns[1..], acc[k.name := s.value], c);
      }
    }
  }

  lemma {:induction false} CollectInputsFails(g: Editor, ctx: SynthParameters, n: Node, path: seq<NodeId>,
                                              knobs: seq<Knob>, acc: map<string, Signal>, j: nat, c: Connection)
    requires UpstreamResolvable(g)
    requires j < |knobs| && knobs[j].kind == InputKnob
    requires c in FindConnections(g.connections, knobs[j]) && Blocked(g, ctx, n, path, c)
    ensures CollectInputs(g, ctx, n, path, knobs, acc).Err?
    decreases j, 1
  {
    if j == 0 {
      BindUpstreamFails(g, ctx, n, path, knobs[0], FindConnections(g.connections, knobs[0]), acc, c);
    } else {
      CollectInputsFailsLater(g, ctx, n, path, knobs, acc, j, c);
    }
  }

  /** The blocked connection is at a later knob: either the first knob
      already fails, or the failure comes from the rest of the loop. */
  lemma {:induction false} CollectInputsFailsLater(g: Editor, ctx: SynthParameters, n: Node, path: seq<NodeId>,
                                                   knobs: seq<Knob>, acc: map<string, Signal>, j: nat, c: Connection)
    requires UpstreamResolvable(g)
    requires 0 < j < |knobs| && knobs[j].kind == InputKnob
    requires c in FindConnections(g.connections, knobs[j]) && Blocked(g, ctx, n, path, c)
    ensures CollectInputs(g, ctx, n, path, knobs, acc).Err?
    decreases j, 0
  {
    assert knobs[1..][j - 1] == knobs[j];
    if knobs[0].kind != InputKnob {
      CollectInputsFails(g, ctx, n, path, knobs[1..], acc, j - 1, c);
    } else {
      var b := BindUpstream(g, ctx, n, path, knobs[0], FindConnections(g.connections, knobs[0]), acc);
      if b.Ok? {
        CollectInputsFails(g, ctx, n, path, knobs[1..], b.value, j - 1, c);
      }
    }
  }

  /** A connection into one of the node's input knobs that leads back onto
      the path, or to a node whose evaluation fails, makes the whole
      evaluation of the node fail. */
  lemma UpstreamFailureAborts(g: Editor, ctx: SynthParameters, n: Node, path: seq<NodeId>, k: Knob, c: Connection)
    requires UpstreamResolvable(g)
    requires k in n.knobs && k.kind == InputKnob
    requires c in FindConnections(g.connections, k) && Blocked(g, ctx, n, path, c)
    ensures EvalNode(g, ctx, n, path).Err?
  {
    var j :| 0 <= j < |n.knobs| && n.knobs[j] == k;
    CollectInputsFails(g, ctx, n, path, n.knobs, map[], j, c);
  }

  /** "No loops allowed in graph.": an input whose upstream node is already
      on the evaluation path makes evaluation fail with that error. */
  lemma LoopOnPathRaises(g: Editor, ctx: SynthParameters, n: Node, path: seq<NodeId>, k: Knob, c: Connection)
    requires UpstreamResolvable(g)
    requires k in n.knobs && k.kind == InputKnob
    requires c in FindConnections(g.connections, k) && c.outputKnob.node in path
    ensures EvalNode(g, ctx, n, path) == Err(NoLoopsAllowed)
  {
    UpstreamFailureAborts(g, ctx, n, path, k, c);
  }

  /** Node `n` has an input knob with a connection from a node of `s`. */
  predicate HasUpstreamIn(g: Editor, n: Node, s: set<NodeId>)
  {
    exists k, c :: k in n.knobs && k.kind == InputKnob && c in FindConnections(g.connections, k) && c.outputKnob.node in s
  }

  /** Every node of `s` is in the graph and is fed from a node of `s`. The
      nodes of a cycle, together with every node downstream of it, form
      such a set. */
  predicate FeedsItself(g: Editor, s: set<NodeId>)
  {
    forall v :: v in s ==> NodeById(g.nodes, v).Some? && HasUpstreamIn(g, NodeById(g.nodes, v).value, s)
  }

  /** Evaluation detects every cycle: a node on a cycle, or downstream of
      one, fails whatever path it is reached with, and the recursion that
      finds this terminates. */
  lemma CycleFails(g: Editor, ctx: SynthParameters, s: set<NodeId>, v: NodeId, path: seq<NodeId>)
    requires UpstreamResolvable(g)
    requires FeedsItself(g, s) && v in s
    ensures EvalNode(g, ctx, NodeById(g.nodes, v).value, path) == Err(NoLoopsAllowed)
    decreases Measure(g, v, path), Flag(v, path)
  {
    var n := NodeById(g.nodes, v).value;
    var k, c :| k in n.knobs && k.kind == InputKnob && c in FindConnections(g.connections, k) && c.outputKnob.node in s;
    var up := c.outputKnob.node;
    if up !in path {
      assert NodeById(g.nodes, up).value in g.nodes;
      MeasureDecreases(g, v, path, up);
      CycleFails(g, ctx, s, up, path + [v]);
    }
    UpstreamFailureAborts(g, ctx, n, path, k, c);
  }

  /** Following `c` from `n` succeeds. */
  predicate Clear(g: Editor, ctx: SynthParameters, n: Node, path: seq<NodeId>, c: Connection)
    requires UpstreamResolvable(g) && c in g.connections
  {
    && c.outputKnob.node !in path
    && EvalNode(g, ctx, NodeById(g.nodes, c.outputKnob.node).value, path + [n.id]).Ok?
  }

  lemma {:induction false} BindUpstreamSucceeds(g: Editor, ctx: SynthParameters, n: Node, path: seq<NodeId>,
                                                k: Knob, conns: seq<Connection>, acc: map<string, Signal>)
    requires UpstreamResolvable(g)
    requires forall x :: x in conns ==> x in g.connections && Clear(g, ctx, n, path, x)
    ensures BindUpstream(g, ctx, n, path, k, conns, acc).Ok?
    decreases |conns|
  {
    if |conns| > 0 {
      assert conns[0] in conns && Clear(g, ctx, n, path, conns[0]);
      var u := NodeById(g.nodes, conns[0].outputKnob.node).value;
      var s := EvalNode(g, ctx, u, path + [n.id]);
      assert forall x :: x in conns[1..] ==> x in conns;
      BindUpstreamSucceeds(g, ctx, n, path, k, conns[1..], acc[k.name := s.value]);
    }
  }

  lemma {:induction false} CollectInputsSucceeds(g: Editor, ctx: SynthParameters, n: Node, path: seq<NodeId>,
                                                 knobs: seq<Knob>, acc: map<string, Signal>)
    requires UpstreamResolvable(g)
    requires forall j, c :: 0 <= j < |knobs| && knobs[j].kind == InputKnob && c in FindConnections(g.connections, knobs[j]) ==>
      Clear(g, ctx, n, path, c)
    ensures CollectInputs(g, ctx, n, path, knobs, acc).Ok?
    decreases |knobs|
  {
    if |knobs| > 0 {
      var next := acc;
      if knobs[0].kind == InputKnob {
        BindUpstreamSucceeds(g, ctx, n, path, knobs[0], FindConnections(g.connections, knobs[0]), acc);
        next := BindUpstream(g, ctx, n, path, knobs[0], FindConnections(g.connections, knobs[0]), acc).value;
      }
      forall j, c | 0 <= j < |knobs[1..]| && knobs[1..][j].kind == InputKnob && c in FindConnections(g.connections, knobs[1..][j])
        ensures Clear(g, ctx, n, path, c)
      {
        assert knobs[1..][j] == knobs[j + 1];
      }
      CollectInputsSucceeds(g, ctx, n, path, knobs[1..], next);
    }
  }

  /** Every connection into an input knob of a graph node comes from a node
      of strictly smaller rank: the graph has no cycle. */
  predicate Ranked(g: Editor, rank: NodeId -> nat)
  {
    forall n, k, c :: n in g.nodes && k in n.knobs && k.kind == InputKnob && c in FindConnections(g.connections, k) ==>
      rank(c.outputKnob.node) < rank(n.id)
  }

  /** No false alarms: in an acyclic graph, evaluating a node reached along
      a path of higher-ranked nodes succeeds. */
  lemma AcyclicSucceeds(g: Editor, ctx: SynthParameters, rank: NodeId -> nat, n: Node, path: seq<NodeId>)
    requires UpstreamResolvable(g) && Ranked(g, rank)
    requires n in g.nodes
    requires forall p :: p in path ==> rank(n.id) < rank(p)
    ensures EvalNode(g, ctx, n, path).Ok?
    decreases Measure(g, n.id, path), Flag(n.id, path), 1
  {
    forall j, c | 0 <= j < |n.knobs| && n.knobs[j].kind == InputKnob && c in FindConnections(g.connections, n.knobs[j])
      ensures Clear(g, ctx, n, path, c)
    {
      AcyclicUpstreamClear(g, ctx, rank, n, path, j, c);
    }
    CollectInputsSucceeds(g, ctx, n, path, n.knobs, map[]);
  }

  /** In a ranked graph every connection into the node is clear: its
      upstream node ranks below everything on the path, so it is not on
      it, and it evaluates by the induction. */
  lemma AcyclicUpstreamClear(g: Editor, ctx: SynthParameters, rank: NodeId -> nat, n: Node, path: seq<NodeId>, j: int, c: Connection)
    requires UpstreamResolvable(g) && Ranked(g, rank)
    requires n in g.nodes
    requires forall p :: p in path ==> rank(n.id) < rank(p)
    requires 0 <= j < |n.knobs| && n.knobs[j].kind == InputKnob && c in FindConnections(g.connections, n.knobs[j])
    ensures c in g.connections && Clear(g, ctx, n, path, c)
    decreases Measure(g, n.id, path), Flag(n.id, path), 0
  {
    var up := c.outputKnob.node;
    RankedUpstream(g, rank, n, path, n.knobs[j], c);
    var u := NodeById(g.nodes, up).value;
    MeasureDecreases(g, n.id, path, up);
    AcyclicSucceeds(g, ctx, rank, u, path + [n.id]);
  }

  /** The upstream end of a connection into a node ranks below the node,
      hence below the whole path, and is a node of the graph. */
  lemma RankedUpstream(g: Editor, rank: NodeId -> nat, n: Node, path: seq<NodeId>, k: Knob, c: Connection)
    requires UpstreamResolvable(g) && Ranked(g, rank)
    requires n in g.nodes && k in n.knobs && k.kind == InputKnob && c in FindConnections(g.connections, k)
    requires forall p :: p in path ==> rank(n.id) < rank(p)
    ensures c in g.connections && c.outputKnob.node !in path
    ensures c.outputKnob.node in NodeIds(g.nodes)
    ensures var u := NodeById(g.nodes, c.outputKnob.node).value;
      u in g.nodes && forall p :: p in path + [n.id] ==> rank(u.id) < rank(p)
  {
    assert rank(c.outputKnob.node) < rank(n.id);
  }

  // ---------------------------------------------------------------------
  // What the node's function receives
  // ---------------------------------------------------------------------

  /** Following a knob's connections writes the knob's name, and only it. */
  lemma {:induction false} BindUpstreamWrites(g: Editor, ctx: SynthParameters, n: Node, path: seq<NodeId>,
                                              k: Knob, conns: seq<Connection>, acc: map<string, Signal>)
    requires UpstreamResolvable(g)
    requires forall c :: c in conns ==> c in g.connections
    requires BindUpstream(g, ctx, n, path, k, conns, acc).Ok?
    ensures var m := BindUpstream(g, ctx, n, path, k, conns, acc).value;
      && m.Keys == (if |conns| == 0 then acc.Keys else acc.Keys + {k.name})
      && forall name :: name in acc && name != k.name ==> m[name] == acc[name]
    decreases |conns|
  {
    if |conns| > 0 {
      var u := NodeById(g.nodes, conns[0].outputKnob.node).value;
      var s := EvalNode(g, ctx, u, path + [n.id]).value;
      BindUpstreamWrites(g, ctx, n, path, k, conns[1..], acc[k.name := s]);
    }
  }

  /** A name that no connected input knob carries keeps its entry (or its
      absence) through the knob loop. */
  lemma {:induction false} CollectInputsFrame(g: Editor, ctx: SynthParameters, n: Node, path: seq<NodeId>,
                                              knobs: seq<Knob>, acc: map<string, Signal>, name: string)
    requires UpstreamResolvable(g)
    requires CollectInputs(g, ctx, n, path, knobs, acc).Ok?
    requires forall j :: 0 <= j < |knobs| && knobs[j].kind == InputKnob && knobs[j].name == name ==>
      |FindConnections(g.connections, knobs[j])| == 0
    ensures var m := CollectInputs(g, ctx, n, path, knobs, acc).value;
      && (name in m <==> name in acc)
      && (name in acc ==> m[name] == acc[name])
    decreases |knobs|
  {
    if |knobs| > 0 {
      var next := acc;
      if knobs[0].kind == InputKnob {
        var conns := FindConnections(g.connections, knobs[0]);
        BindUpstreamWrites(g, ctx, n, path, knobs[0], conns, acc);
        next := BindUpstream(g, ctx, n, path, knobs[0], conns, acc).value;
      }
      forall j | 0 <= j < |knobs[1..]| && knobs[1..][j].kind == InputKnob && knobs[1..][j].name == name
        ensures |FindConnections(g.connections, knobs[1..][j])| == 0
      {
        assert knobs[1..][j] == knobs[j + 1];
      }
      CollectInputsFrame(g, ctx, n, path, knobs[1..], next, name);
    }
  }

  /** An input knob with exactly one connection, and no other connected
      input knob of the same name, contributes the upstream node's result. */
  lemma {:induction false} CollectInputsHit(g: Editor, ctx: SynthParameters, n: Node, path: seq<NodeId>,
                                            knobs: seq<Knob>, acc: map<string, Signal>, j: nat, c: Connection)
    requires UpstreamResolvable(g)
    requires CollectInputs(g, ctx, n, path, knobs, acc).Ok?
    requires j < |knobs| && knobs[j].kind == InputKnob && FindConnections(g.connections, knobs[j]) == [c]
    requires forall i :: 0 <= i < |knobs| && i != j && knobs[i].kind == InputKnob && knobs[i].name == knobs[j].name ==>
      |FindConnections(g.connections, knobs[i])| == 0
    ensures c in g.connections
    ensures var m := CollectInputs(g, ctx, n, path, knobs, acc).value;
      && knobs[j].name in m
      && EvalNode(g, ctx, NodeById(g.nodes, c.outputKnob.node).value, path + [n.id]) == Ok(m[knobs[j].name])
    decreases j
  {
    assert c in FindConnections(g.connections, knobs[j]);
    var next := acc;
    if knobs[0].kind == InputKnob {
      var conns := FindConnections(g.connections, knobs[0]);
      BindUpstreamWrites(g, ctx, n, path, knobs[0], conns, acc);
      next := BindUpstream(g, ctx, n, path, knobs[0], conns, acc).value;
    }
    if j == 0 {
      CollectInputsHitFirst(g, ctx, n, path, knobs, acc, c, next);
    } else {
      var name := knobs[j].name;
      forall i | 0 <= i < |knobs[1..]| && i != j - 1 && knobs[1..][i].kind == InputKnob && knobs[1..][i].name == knobs[1..][j - 1].name
        ensures |FindConnections(g.connections, knobs[1..][i])| == 0
      {
        assert knobs[1..][i] == knobs[i + 1];
      }
      CollectInputsHit(g, ctx, n, path, knobs[1..], next, j - 1, c);
    }
  }

  /** The knob with the single connection is the first one: the
      connection's result is stored under its name, and the rest of the
      loop leaves that entry alone. */
  lemma {:induction false} CollectInputsHitFirst(g: Editor, ctx: SynthParameters, n: Node, path: seq<NodeId>,
                                                 knobs: seq<Knob>, acc: map<string, Signal>, c: Connection, next: map<string, Signal>)
    requires UpstreamResolvable(g)
    requires 0 < |knobs| && knobs[0].kind == InputKnob && FindConnections(g.connections, knobs[0]) == [c]
    requires CollectInputs(g, ctx, n, path, knobs, acc).Ok?
    requires forall i :: 0 < i < |knobs| && knobs[i].kind == InputKnob && knobs[i].name == knobs[0].name ==>
      |FindConnections(g.connections, knobs[i])| == 0
    requires c in g.connections
    requires BindUpstream(g, ctx, n, path, knobs[0], [c], acc) == Ok(next)
    ensures var m := CollectInputs(g, ctx, n, path, knobs, acc).value;
      && knobs[0].name in m
      && EvalNode(g, ctx, NodeById(g.nodes, c.outputKnob.node).value, path + [n.id]) == Ok(m[knobs[0].name])
  {
    var name := knobs[0].name;
    assert CollectInputs(g, ctx, n, path, knobs, acc) == CollectInputs(g, ctx, n, path, knobs[1..], next);
    forall i | 0 <= i < |knobs[1..]| && knobs[1..][i].kind == InputKnob && knobs[1..][i].name == name
      ensures |FindConnections(g.connections, knobs[1..][i])| == 0
    {
      assert knobs[1..][i] == knobs[i + 1];
    }
    CollectInputsFrame(g, ctx, n, path, knobs[1..], next, name);
    var u := NodeById(g.nodes, c.outputKnob.node).value;
    assert c.outputKnob.node !in path;
    assert next == acc[name := EvalNode(g, ctx, u, path + [n.id]).value];
  }

  /** A `SynthBuffer` parameter whose input knob has one connection is
      bound to the result of evaluating the node upstream of it. */
  lemma ConnectedBufferBinding(g: Editor, ctx: SynthParameters, n: Node, path: seq<NodeId>,
                               p: Parameter, j: nat, c: Connection)
    requires UpstreamResolvable(g) && EvalNode(g, ctx, n, path).Ok?
    requires DistinctParameterNames(n.func.parameters) && p in n.func.parameters
    requires IsBufferParameter(p) && LookupProperty(n.properties, p.name).None?
    requires j < |n.knobs| && n.knobs[j].kind == InputKnob && n.knobs[j].name == p.name
    requires FindConnections(g.connections, n.knobs[j]) == [c]
    requires forall i :: 0 <= i < |n.knobs| && i != j && n.knobs[i].kind == InputKnob && n.knobs[i].name == p.name ==>
      |FindConnections(g.connections, n.knobs[i])| == 0
    ensures c in g.connections
    ensures var up := EvalNode(g, ctx, NodeById(g.nodes, c.outputKnob.node).value, path + [n.id]);
      && up.Ok?
      && BindingOf(EvalNode(g, ctx, n, path).value.args, p.name) == Some(SignalArg(up.value))
  {
    CollectInputsHit(g, ctx, n, path, n.knobs, map[], j, c);
  }

  /** A `SynthBuffer` parameter with nothing connected is bound to a buffer
      filled with the parameter's default. */
  lemma UnconnectedBufferBinding(g: Editor, ctx: SynthParameters, n: Node, path: seq<NodeId>, p: Parameter)
    requires UpstreamResolvable(g) && EvalNode(g, ctx, n, path).Ok?
    requires DistinctParameterNames(n.func.parameters) && p in n.func.parameters
    requires IsBufferParameter(p) && LookupProperty(n.properties, p.name).None?
    requires forall i :: 0 <= i < |n.knobs| && n.knobs[i].kind == InputKnob && n.knobs[i].name == p.name ==>
      |FindConnections(g.connections, n.knobs[i])| == 0
    ensures BindingOf(EvalNode(g, ctx, n, path).value.args, p.name) == Some(SignalArg(Filled(p.default)))
  {
    CollectInputsFrame(g, ctx, n, path, n.knobs, map[], p.name);
  }
}
